=== FILE: README.md ===
# Price catalog upload and export, modelled in Dafny

The service accepts a ZIP archive holding a CSV file of product prices. It
saves the upload under the client's file name in a temporary directory,
extracts the archive into that same directory and looks for the first `.csv`
file there, reads its records
into `PriceData` values and inserts them into a Postgres table `prices` in a
single transaction. It then answers with the number of items added and the
distinct-category count and price sum over the whole table. A GET request
writes the whole table back out as CSV: a fixed header row, then one row per
stored product.

This project models that core as pure functions over immutable data:

- `Listing`: `filepath.Ext` and `findFirstCSVFile` over an ordered directory
  listing.
- `Dates`: the Go layout `2006-01-02`, i.e. the `full-date` production of
  section 5.6 of RFC 3339, with the day-of-month limits of section 5.7
  (Gregorian leap years). It covers parsing and formatting.
- `Decimal`: digit strings and `strconv.Itoa`.
- `Text`: splitting at and joining on a separator character.
- `CsvReader`: the quote-free subset of section 2 of RFC 4180, as read with
  comment character `#` and a variable number of fields. It also holds
  `ReadCSV`, which drops the header, maps fields and fails fast.
- `Catalog`: the `prices` table as a sequence of entries plus the next id to
  assign, and the table-wide aggregates.
- `Transaction`: the database half of `HandlePost`. Every storage failure
  point is an input (`Outage`).
- `Post`: the whole POST pipeline after extraction, from the listing of the
  temporary directory through reading to ingest.
- `CsvWriter`: the quoting rule of Go's `csv.Writer`.
- `Export`: the rows that `HandleGet` writes, including its query and cursor
  failures.
- `RoundTrip`: what `ReadCSV` makes of an export's CSV text.

`strconv.ParseFloat` is a parameter `string -> Option<real>`, and
`fmt.Sprintf("%.2f", _)` is a parameter `real -> string`. Prices are exact
reals.

Consequences of the code that the model makes explicit:

- `ReadCSV` reads the price from field 3 and the date from field 4, and
  ignores field 2. So any data record in a four-column name, category,
  price, date layout is refused (`CsvReader.FourColumnLayoutRefused`); a
  file of that layout with only its header line reads as an empty batch.
- The export writes the id in column 0. Reading an export's CSV text back
  with `ReadCSV` therefore gives the id text as the name and the product
  name as the category, and the original category is lost. This holds when
  no exported name, category or price text needs quoting
  (`RoundTrip.ReimportShiftsColumns`). The date comes back unchanged. The
  price comes back as its two-decimal text read again (9.999 comes back as
  10.00); it is the original price only when that text reads back exactly
  (`RoundTrip.ReimportKeepsPriceAndDate`).
- Only the first CSV file of the temporary directory is opened; later ones
  never affect a request (`Post.LaterFilesIgnored`).
- The temporary directory holds the saved upload under the client's file name
  as well as the extracted entries (handlers.go:53, 70, 78). An upload named
  `a.csv` is therefore itself a candidate, and is chosen ahead of an extracted
  `b.csv`; its archive bytes are then read as CSV (`Listing.SavedUploadChosen`).
- A data record with fewer than five fields makes the Go code index out of
  range and panic. The model reports this as `RowTooShort`. A four-field
  record whose price does not parse reports the price first, because the
  price is read before field 4 is indexed.
- The totals in the response cover the whole table, not the uploaded batch.
  An upload into an empty table of an empty batch commits, but then fails:
  `SUM` over no rows is NULL.
- The export loop never asks the cursor for its error. A cursor that fails
  part-way yields a successful, shorter export.
- The export query has no `ORDER BY`, so the entries are taken in the order
  given.

## Model

| member | source | states |
|---|---|---|
| Listing.ExtBefore | utils.go:99 | the suffix found scanning leftwards from a position starts with the last dot before it, with no dot or separator after that dot; when empty, every dot lies before a separator |
| Listing.ExtShape | utils.go:99 | `filepath.Ext` is either empty (every dot of the path lies before a separator) or the path's suffix that starts at its last dot and holds no separator |
| Listing.CsvExtIff | utils.go:99 | the extension equals ".csv" exactly when the name ends in ".csv"; the comparison is case-sensitive |
| Listing.ExtExamples | utils.go:99 | "a.CSV" does not have the ".csv" extension; "b.tar.csv" does |
| Listing.FindFrom | utils.go:94-102 | the search from a position finds the first CSV file at or after it, or there is none there |
| Listing.FindFirstCsv | utils.go:94-104 | the chosen entry is a non-directory with extension ".csv" and no earlier entry is one; the call fails exactly when no entry is one |
| Listing.FirstCsvChosen | utils.go:94-101 | a CSV file at the head of the listing is chosen whatever follows |
| Listing.SavedUploadChosen | handlers.go:53-78 | the saved upload, named "a.csv" and listed ahead of an extracted "b.csv", is the file chosen |
| Listing.DirectoryNamedCsvSkipped | utils.go:95-97 | a directory in front of the listing never changes whether a file is found; it only shifts the position found |
| Dates.DaysIn | utils.go:143 | month lengths per section 5.7 of RFC 3339: 29 days exactly for February of a leap year, 28 exactly for February otherwise, 30 exactly for April, June, September and November |
| Dates.FormatDate | handlers.go:242 | the `2006-01-02` rendering is ten characters: four digits, dash, two digits, dash, two digits; the digit groups denote the year, the month and the day |
| Dates.ParseDate | utils.go:143 | a string is accepted exactly when it has that shape with a month 1..12 and a day within the month; an accepted string is the formatting of the date returned, so the date's year, month and day are the values of its digit groups |
| Dates.FormatThenParse | handlers.go:242 | parsing the formatted date gives the date back |
| Dates.AcceptedAreFormatted | utils.go:143 | the accepted strings are exactly the formatted valid dates |
| Dates.ParseShape | utils.go:143 | for a well-shaped string, acceptance depends only on the month and day being in range |
| Dates.LeapDay2024Accepted | utils.go:143 | "2024-02-29" is accepted |
| Dates.LeapDay2000Accepted | utils.go:143 | "2000-02-29" is accepted (divisible by 400) |
| Dates.LeapDay2023Refused | utils.go:143 | "2023-02-29" is refused |
| Dates.LeapDay1900Refused | utils.go:143 | "1900-02-29" is refused (century not divisible by 400) |
| Dates.ShortMonthRefused | utils.go:143 | "2024-1-15" is refused: the layout needs two-digit months |
| Decimal.Value | handlers.go:242 | a digit string of length n denotes a number below 10^n |
| Decimal.FixedValue | handlers.go:242 | zero-padded rendering to a width the number fits in is read back as the number |
| Decimal.ValueFixed | utils.go:143 | a digit string is the zero-padded rendering of its own value |
| Decimal.NatString | handlers.go:242 | the decimal rendering of a natural number is a non-empty digit string that denotes it, with no leading zero |
| Decimal.CanonicalUnique | handlers.go:242 | two digit strings without a leading zero that denote the same number are equal |
| Decimal.Itoa | handlers.go:242 | `strconv.Itoa`: a minus sign then the digits of the magnitude for negatives, the plain digits otherwise |
| Decimal.ItoaInjective | handlers.go:242 | distinct ids render to distinct texts |
| Decimal.ItoaShape | handlers.go:242 | the rendering is non-empty, and only its first character may be a minus sign |
| Text.Split | utils.go:116 | the pieces hold no separator and joining them back gives the input |
| Text.SplitJoin | utils.go:116 | splitting the join of separator-free pieces gives the pieces back |
| Text.SplitAtFirst | utils.go:116 | splitting a separator-free prefix, a separator and a rest gives the prefix then the rest's pieces |
| CsvReader.StripCR | utils.go:115 | a line ending in a carriage return loses exactly that character; any other line is unchanged |
| CsvReader.NoQuoteIsQuoteFree | utils.go:115-118 | a text with no quote character meets the reader's quote-free requirement |
| CsvReader.QuotedCommentAllowed | utils.go:117 | a quote inside a comment line is harmless: the text "h", newline, `#"x"` is read as the single record ["h"] |
| CsvReader.RecordsShape | utils.go:115-118 | records come only from non-empty, non-comment lines; no field holds a comma, nor a newline |
| CsvReader.KeptLineShape | utils.go:115-118 | the record of a non-empty, non-comment line has a field, does not start with `#`, and holds no comma, nor a newline when the line has none |
| CsvReader.Tokenize | utils.go:115-118 | every record has a field; no field holds a comma or newline; no record starts with the comment marker; there are no more records than lines |
| CsvReader.LineRecords | utils.go:117-118 | a line contributes no record exactly when it is empty or a comment line; otherwise its comma-split fields, any number of them |
| CsvReader.RecordsOfLine | utils.go:115-118 | a single line yields exactly its own records |
| CsvReader.RecordsOfAppend | utils.go:115-118 | the records of two runs of lines are the records of the first run followed by those of the second |
| CsvReader.TokenizeFirstLine | utils.go:115-118 | a text's first line contributes its records, followed by the records of the rest of the text |
| CsvReader.TokenizeLastLine | utils.go:115-118 | a text without a newline yields the records of that one line |
| CsvReader.ParseRecord | utils.go:138-154 | a record is accepted exactly when it has at least five fields, field 3 is a number and field 4 a date; the result takes name, category, price and date from fields 0, 1, 3, 4; fewer than four fields is too short; with four or more a bad price is reported first; then four fields is too short; then a bad date is reported |
| CsvReader.ParseRows | utils.go:128-158 | all records are accepted or the first failing record is reported, with the error that record itself gives; on success one value per record, in order |
| CsvReader.ReadRecords | utils.go:120-160 | no records means no header; otherwise the header is dropped and the call succeeds exactly when every data record is accepted, giving one value per data record in order, or it fails at the first bad record, with that record's own error, and no data |
| CsvReader.ReadCsv | utils.go:107-160 | a text with no record has no header; a successful read has one value per record after the header |
| CsvReader.DecodesUnique | utils.go:149-154 | a record determines the value built from it |
| CsvReader.ReadRecordsExactly | utils.go:120-160 | when every data record decodes to the matching value of a sequence, reading gives exactly that sequence |
| CsvReader.HeaderNotInspected | utils.go:122-126 | the first record's contents never affect the outcome |
| CsvReader.CommentsOnlyHasNoHeader | utils.go:117-126 | a text of empty and comment lines yields no record, so the read fails for lack of a header |
| CsvReader.UnusedFieldsIgnored | utils.go:138-154 | field 2 and fields past 4 do not affect a record's outcome |
| CsvReader.FourColumnLayoutRefused | utils.go:138-146 | a file with at least one data record, all in the name, category, price, date layout, never reads: the first data record fails as too short or with a bad price |
| Catalog.AsEntries | handlers.go:113-114 | a batch becomes entries numbered consecutively from the next id, with fields copied in order |
| Catalog.SumAppend | handlers.go:148 | the price sum of two parts is the sum of their sums |
| Catalog.CategoriesAppend | handlers.go:148 | the distinct categories of two parts are the union of theirs |
| Catalog.AsEntriesTotals | handlers.go:148 | the stored batch has the batch's price sum and categories |
| Catalog.Aggregate | handlers.go:146-153 | the price sum is NULL and the distinct count is zero exactly when the table is empty |
| Transaction.ExecBatch | handlers.go:113-136 | the insert loop completes exactly when no insert and no category query in its range fails; it then appends the rest of the batch with consecutive ids and counts each item; otherwise it reports the failing step and row |
| Transaction.Ingest | handlers.go:94-167 | a commit appends exactly the batch in order; without a commit the table is unchanged and the request fails; the request succeeds exactly when it commits, the aggregate query works and the table is non-empty; the response holds the batch size and the table-wide totals; an empty table after commit fails with a NULL sum |
| Transaction.IngestTotals | handlers.go:121-166 | total_items is the batch size, total_price the old table sum plus the batch sum, and total_categories the size of the union of old and batch categories, so at least either alone |
| Transaction.FailureLeavesCatalog | handlers.go:113-143 | an insert, category query or commit failure leaves the table as it was |
| Transaction.BatchLocalTotalUnreported | handlers.go:109-167 | the reported price total equals the batch-local sum exactly when the prior table sums to zero |
| Transaction.Cumulative | handlers.go:148-166 | after two uploads the second response covers the original table and both batches |
| Transaction.ConsecutiveAppend | handlers.go:113-114 | appending consecutively numbered entries from the next id keeps ids increasing and below the advanced next id |
| Transaction.AppendKeepsIdsOrdered | handlers.go:113-138 | committing a batch keeps ids increasing and below the next id |
| Transaction.IngestKeepsIdsOrdered | handlers.go:94-143 | every ingest outcome keeps ids increasing and below the next id |
| Transaction.TwoToolsRows | handlers.go:148 | two "Tools" items priced 9.99 and 19.50 have one category and sum 29.49 |
| Transaction.TwoToolsExample | handlers.go:94-167 | uploading those two items into an empty table answers 2 items, 1 category, 29.49 |
| Post.Payload | handlers.go:77-91 | no CSV file gives no payload; otherwise the first CSV file is read and its error or batch is passed on |
| Post.HandlePost | handlers.go:77-167 | a missing or unreadable payload leaves the table unchanged and is reported; otherwise a commit appends the batch, the reply succeeds exactly when the transaction commits, the aggregate query works and the table is non-empty, and a success reports the batch size and the table-wide totals; the table only changes when a payload was read |
| Post.BadRecordAbortsUpload | utils.go:138-146 | one bad data record anywhere fails the upload as unreadable and leaves the table unchanged |
| Post.SamePayloadSameOutcome | handlers.go:77-167 | two listings that yield the same payload give the same request outcome |
| Post.LaterFilesIgnored | utils.go:94-101 | with a readable CSV file first, whatever follows it in the listing, quoted or not, gives the same outcome |
| Post.NoPayloadNoChange | handlers.go:77-83 | a listing without a CSV file fails before any read or storage step |
| CsvWriter.DoubleQuotes | handlers.go:242 | escaping quotes never shortens a field and leaves a quote-free field alone |
| CsvWriter.DoubleQuotesRoundTrip | handlers.go:242 | collapsing doubled quotes undoes the escaping |
| CsvWriter.QuoteField | handlers.go:242 | a field that needs no quotes is written as is; otherwise it is written inside quotes and its inside collapses back to the field |
| CsvWriter.PlainLine | handlers.go:242 | a row of fields needing no quotes is written as its fields joined by commas |
| Export.ExportRow | handlers.go:242 | a row has five fields: field 0 denotes the id, fields 1 and 2 are the name and category, field 3 is the formatted price, and field 4 parses back to the entry's date |
| Export.ExportRows | handlers.go:219-248 | the header comes first, then the row of each entry, in order |
| Export.HandleGet | handlers.go:186-248 | the export fails exactly when the query fails or a scan of an existing row fails; otherwise it is the header and all entries, or the entries read before the cursor broke |
| Export.ExportCoversCatalog | handlers.go:188-248 | when the query yields the catalog's entries in any order, the export has one row per entry after the header: every entry's row appears and every row is some entry's |
| Export.CursorErrorTruncatesSilently | handlers.go:227 | a cursor that breaks after k rows still gives a successful export of the first k entries |
| RoundTrip.SerializedLines | handlers.go:219-250 | the written text splits into one line per row plus the empty text after the final newline |
| RoundTrip.LineTokenizes | utils.go:115-118 | a row written without quotes is read back as the same record |
| RoundTrip.TokenizeSerialize | handlers.go:219-250 | rows whose fields need no quotes and carry no comment marker are read back as the same records |
| RoundTrip.ExportTransparent | handlers.go:219-242 | with plain names, categories and prices, every export row is written without quotes |
| RoundTrip.ExportRecordsRead | utils.go:138-154 | reading the export rows takes the id text as name, the name as category, and keeps price and date |
| RoundTrip.ReimportShiftsColumns | utils.go:138-154 | reading an export's CSV text with `ReadCSV` gives one value per entry, each with the id text as name, the product name as category, the two-decimal price text read again, and the date, provided no exported field needs quoting |
| RoundTrip.ReimportKeepsPriceAndDate | utils.go:138-154 | when the price text parses back to the price, the values read back carry the original prices and dates but not the categories |

## Left out

- Multipart form parsing, temporary directories, file copies, the JSON
  encoding of the response and HTTP status codes and headers are left out.
  They are I/O plumbing (handlers.go:27-67, 169-181, 197-213).
- `Unzip`, `Zip` and the export's ZIP packaging are left out (utils.go:16-85,
  handlers.go:250-298). The archive format belongs to `archive/zip`, which is
  not part of this model. The temporary directory is an input listing with
  each file's text: the saved upload under the client's file name together
  with the extracted entries.
- The archive `HandleGet` serves is read back from disk after
  `zipWriter.Flush()` but before the writer is closed (handlers.go:262-279),
  so it lacks the ZIP central directory and `Unzip` would refuse it. The
  model therefore never claims an export can be uploaded again; the
  `RoundTrip` lemmas only read the export's CSV text.
- `os.ReadDir` and its name sorting are left out. The listing is taken in the
  order given, and nothing below a directory is looked at.
- CsvReader.Tokenize: requires that no line yielding a record holds `"`
  (quotes in empty and comment lines are allowed). The quoted fields and
  escaped quotes of RFC 4180 are not modelled in the reader.
- CsvReader.ReadCsv: carries the same quote-free requirement as `Tokenize`.
- Post.Payload: requires the same of the first CSV file only, the one that
  is read.
- Post.HandlePost: inherits the quote-free requirement on the first CSV
  file from `Post.Payload`.
- Post.BadRecordAbortsUpload: inherits the quote-free requirement on the
  first CSV file from `Post.Payload`.
- CsvReader.ParseRecord: a record too short for field 3 or 4 makes the Go
  code panic; `net/http` recovers the panic and drops the connection
  without a reply. The model reports `RowTooShort` as an ordinary failure.
  Either way nothing is stored, because reading precedes the transaction.
- Float64 behaviour is left out. `strconv.ParseFloat` and `%.2f` are
  parameters, prices are exact reals, and `SUM` is an exact sum.
- Transaction isolation and concurrent requests are left out. The per-row
  `COUNT(*)` query (handlers.go:126) runs outside the transaction. Its value
  only feeds the loop-local `totalCategories` counter, which is never
  reported, so only the query's failure is modelled.
- The handler never calls `tx.Rollback()`. After a Prepare, insert or
  per-row query failure (handlers.go:102-106, 115-119, 127-131) it returns
  with the transaction still open and its pooled connection still held;
  `db.Begin` uses a context that never ends, so nothing releases them. The model only records that nothing is
  committed: `Transaction.Ingest` drops the open transaction and returns the
  catalog unchanged. Connection pool state is not modelled.
- The loop-local `totalPrice` and `totalCategories` counters are left out
  (handlers.go:110-111, 122, 133-135). They never reach the response;
  `Transaction.BatchLocalTotalUnreported` states the consequence for the price.
- The `prices` table schema is not part of the source. Ids are taken as
  consecutive from a next-id counter, and ids used up by the inserts of an
  abandoned, never-committed transaction are not tracked.
- Dates outside years 0 to 9999 are not represented. `time.Parse` with the
  four-digit `2006` element cannot read them, so they never enter the table;
  Go's `Format` would write them (for example "10000-01-01"), but no stored
  date has such a year. Times of day and time zones are dropped.
- Write and flush errors of `csv.Writer` on the temporary file are left out
  (handlers.go:219-224, 242-247).
- The `fmt.Println` logging throughout the handlers is left out
  (handlers.go:29-297): it affects no reply and no stored data.
- `main.go` is left out: it handles environment loading, the database
  connection and method routing.

=== FILE: catalog.dfy ===
/** The `prices` table as an abstract catalog: committed entries in query
    order, the id the table assigns next, and the aggregates the handlers read. */
module Catalog {
  import opened Wrappers
  import opened Dates
  import opened CsvReader

  /** One committed row: `id, product_name, product_category, product_price,
      manufacture_date`. */
  datatype Entry = Entry(id: int, name: string, category: string, price: real, date: ValidDate)

  datatype Store = Store(entries: seq<Entry>, nextId: int)

  /** Ids increase along the entries. */
  predicate IdsIncrease(entries: seq<Entry>)
  {
    forall i, j :: 0 <= i < j < |entries| ==> entries[i].id < entries[j].id
  }

  /** Every id is below `bound`. */
  predicate IdsBelow(entries: seq<Entry>, bound: int)
  {
    forall i :: 0 <= i < |entries| ==> entries[i].id < bound
  }

  /** Ids increase along the catalog and stay below the next id to assign. */
  predicate IdsOrdered(store: Store)
  {
    IdsIncrease(store.entries) && IdsBelow(store.entries, store.nextId)
  }

  /** Sum of prices over catalog entries. */
  function Sum(entries: seq<Entry>): real
  {
    if |entries| == 0 then 0.0 else entries[0].price + Sum(entries[1..])
  }

  /** Distinct categories over catalog entries. */
  function Categories(entries: seq<Entry>): set<string>
  {
    set e | e in entries :: e.category
  }

  /** Sum of prices over a parsed batch. */
  function BatchSum(batch: seq<PriceData>): real
  {
    if |batch| == 0 then 0.0 else batch[0].price + BatchSum(batch[1..])
  }

  /** Distinct categories over a parsed batch. */
  function BatchCategories(batch: seq<PriceData>): set<string>
  {
    set d | d in batch :: d.category
  }

  /** The rows the insert statement adds for `batch` when the table hands out
      consecutive ids from `firstId`. */
  function AsEntries(batch: seq<PriceData>, firstId: int): (es: seq<Entry>)
    ensures |es| == |batch|
    ensures forall i :: 0 <= i < |batch| ==>
      es[i] == Entry(firstId + i, batch[i].name, batch[i].category, batch[i].price, batch[i].createDate)
  {
    if |batch| == 0 then []
    else [Entry(firstId, batch[0].name, batch[0].category, batch[0].price, batch[0].createDate)]
         + AsEntries(batch[1..], firstId + 1)
  }

  /** The sum is additive over concatenation. */
  lemma {:induction false} SumAppend(a: seq<Entry>, b: seq<Entry>)
    ensures Sum(a + b) == Sum(a) + Sum(b)
  {
    if |a| == 0 {
      assert a + b == b;
    } else {
      assert (a + b)[1..] == a[1..] + b;
      SumAppend(a[1..], b);
    }
  }

  /** Inserted rows carry the batch's prices and categories. */
  lemma {:induction false} AsEntriesTotals(batch: seq<PriceData>, firstId: int)
    ensures Sum(AsEntries(batch, firstId)) == BatchSum(batch)
    ensures Categories(AsEntries(batch, firstId)) == BatchCategories(batch)
  {
    if |batch| > 0 {
      AsEntriesTotals(batch[1..], firstId + 1);
      var es := AsEntries(batch, firstId);
      assert es[1..] == AsEntries(batch[1..], firstId + 1);
    }
    var es := AsEntries(batch, firstId);
    forall c | c in BatchCategories(batch)
      ensures c in Categories(es)
    {
      var d :| d in batch && d.category == c;
      var i :| 0 <= i < |batch| && batch[i] == d;
      assert es[i].category == c;
    }
  }

  /** Distinct categories of a concatenation are the union. */
  lemma CategoriesAppend(a: seq<Entry>, b: seq<Entry>)
    ensures Categories(a + b) == Categories(a) + Categories(b)
  {
    forall c | c in Categories(a + b)
      ensures c in Categories(a) + Categories(b)
    {
      var e :| e in a + b && e.category == c;
    }
  }

  /** A subset has no more elements than its superset. */
  lemma {:induction false} SubsetCard<T>(s: set<T>, t: set<T>)
    requires s <= t
    ensures |s| <= |t|
    decreases |s|
  {
    if s != {} {
      var x :| x in s;
      SubsetCard(s - {x}, t - {x});
    }
  }

  /** `SELECT COUNT(DISTINCT product_category), SUM(product_price)`: the
      count is 0 and the sum is NULL on an empty table. */
  datatype AggregateRow = AggregateRow(distinctCategories: nat, priceSum: Option<real>)

  function Aggregate(entries: seq<Entry>): (row: AggregateRow)
    ensures row.priceSum.None? <==> |entries| == 0
    ensures row.distinctCategories == 0 <==> |entries| == 0
  {
    if |entries| == 0 then AggregateRow(0, None)
    else
      assert entries[0].category in Categories(entries);
      AggregateRow(|Categories(entries)|, Some(Sum(entries)))
  }
}

=== FILE: csv_reader.dfy ===
/** `ReadCSV`: tokenising the payload text into records and turning the
    records into typed price records, all or nothing. */
module CsvReader {
  import opened Wrappers
  import opened Text
  import opened Dates

  /** One record as the CSV reader returns it: its fields in order. */
  type Row = seq<string>

  /** `strconv.ParseFloat(_, 64)`, kept abstract: the value of a numeric text,
      or nothing when the text is not a number. */
  type FloatParser = string -> Option<real>

  /** One parsed line of the payload (`PriceData` in the Go code). */
  datatype PriceData = PriceData(name: string, category: string, price: real, createDate: ValidDate)

  /** Why `ReadCSV` produced no data. `row` is the position of the offending
      record, the header being record 0. `RowTooShort` is the index-out-of-range
      panic on `record[3]` or `record[4]`. */
  datatype CsvError = NoHeader | RowTooShort(row: nat) | BadPrice(row: nat) | BadDate(row: nat)

  const CommentMarker: char := '#'

  /** The reader drops one carriage return at the end of a line
      ("\r\n" line endings, or a final "\r" before end of input). */
  function StripCR(line: string): (l: string)
    ensures line == l || line == l + [CarriageReturn]
    ensures |line| > 0 && line[|line| - 1] != CarriageReturn ==> l == line
    ensures |line| > 0 && line[|line| - 1] == CarriageReturn ==> l == line[..|line| - 1]
  {
    if |line| > 0 && line[|line| - 1] == CarriageReturn then line[..|line| - 1] else line
  }

  /** Lines that yield no record: empty lines and comment lines. */
  predicate IsSkipped(line: string)
  {
    line == "" || line[0] == CommentMarker
  }

  /** The records of the given lines, in order: every kept line split at commas. */
  function RecordsOf(lines: seq<string>): seq<Row>
  {
    if |lines| == 0 then []
    else
      var line := StripCR(lines[0]);
      if IsSkipped(line) then RecordsOf(lines[1..])
      else [Split(line, Comma)] + RecordsOf(lines[1..])
  }

  /** A record as a kept line yields it: it has a field, it is not the
      record of an empty line, its first field does not start with the
      comment marker, and no field holds a comma. */
  predicate WellShaped(record: Row)
  {
    && record != [] && record != [""]
    && (record[0] == "" || record[0][0] != CommentMarker)
    && forall f :: 0 <= f < |record| ==> Comma !in record[f]
  }

  /** No field of the record holds a newline. */
  predicate NoNewlines(record: Row)
  {
    forall f :: 0 <= f < |record| ==> Newline !in record[f]
  }

  /** No record comes from an empty or comment line: every record is well
      shaped, and no field holds a newline when the lines hold none. */
  lemma {:induction false} RecordsShape(lines: seq<string>)
    ensures |RecordsOf(lines)| <= |lines|
    ensures forall k :: 0 <= k < |RecordsOf(lines)| ==> WellShaped(RecordsOf(lines)[k])
    ensures (forall j :: 0 <= j < |lines| ==> Newline !in lines[j]) ==>
      forall k :: 0 <= k < |RecordsOf(lines)| ==> NoNewlines(RecordsOf(lines)[k])
  {
    if |lines| > 0 {
      var r, rest := RecordsOf(lines), RecordsOf(lines[1..]);
      RecordsShape(lines[1..]);
      if IsSkipped(StripCR(lines[0])) {
        assert r == rest;
      } else {
        var fields := Split(StripCR(lines[0]), Comma);
        KeptLineShape(lines[0]);
        assert r == [fields] + rest;
        if forall j :: 0 <= j < |lines| ==> Newline !in lines[j] {
          assert forall j :: 0 <= j < |lines[1..]| ==> Newline !in lines[1..][j];
        }
      }
    }
  }

  /** The record of one kept line is well shaped, and holds no newline when
      the line holds none. */
  lemma KeptLineShape(raw: string)
    requires !IsSkipped(StripCR(raw))
    ensures WellShaped(Split(StripCR(raw), Comma))
    ensures Newline !in raw ==> NoNewlines(Split(StripCR(raw), Comma))
  {
    var line := StripCR(raw);
    var fields := Split(line, Comma);
    assert Join(fields, Comma) == line;
    assert fields[0] == "" || fields[0][0] == line[0] by {
      if |fields| > 1 {
        assert line == fields[0] + [Comma] + Join(fields[1..], Comma);
      }
    }
    if Newline !in raw {
      assert Newline !in line;
      SplitKeepsOut(line, Comma, Newline);
    }
  }

  /** No line that yields a record holds a quote character. Quotes inside
      empty or comment lines are harmless: the reader drops those lines
      before it looks at their fields. */
  predicate QuoteFree(text: string)
  {
    var lines := Split(text, Newline);
    forall j :: 0 <= j < |lines| && !IsSkipped(StripCR(lines[j])) ==> '"' !in lines[j]
  }

  /** A text without any quote character is quote-free. */
  lemma NoQuoteIsQuoteFree(text: string)
    requires '"' !in text
    ensures QuoteFree(text)
  {
    SplitKeepsOut(text, Newline, '"');
  }

  /** A quote inside a comment line does not stop the text from being read:
      the comment line is dropped like any other. */
  lemma QuotedCommentAllowed()
    ensures QuoteFree("h\n#\"x\"")
    ensures Tokenize("h\n#\"x\"") == [["h"]]
  {
    var text := "h\n#\"x\"";
    assert text == "h" + [Newline] + "#\"x\"";
    SplitAtFirst("h", "#\"x\"", Newline);
    SplitNoSeparator("#\"x\"", Newline);
    SplitNoSeparator("h", Comma);
    var lines := Split(text, Newline);
    assert lines == ["h", "#\"x\""];
    assert StripCR(lines[0]) == "h" && IsSkipped(StripCR(lines[1]));
    assert lines[1..] == ["#\"x\""] && lines[1..][1..] == [];
    assert RecordsOf(lines[1..]) == [];
  }

  /** The quote-free subset of RFC 4180 section 2 read with `Comment = '#'` and
      `FieldsPerRecord = -1`: split into lines, drop empty and comment lines,
      split the rest at commas. Records may have any number of fields. */
  function Tokenize(text: string): (records: seq<Row>)
    requires QuoteFree(text)
    ensures |records| <= |Split(text, Newline)|
    ensures forall k :: 0 <= k < |records| ==> |records[k]| >= 1
    ensures forall k, f :: 0 <= k < |records| && 0 <= f < |records[k]| ==> Newline !in records[k][f] && Comma !in records[k][f]
    ensures forall k :: 0 <= k < |records| ==> records[k][0] == "" || records[k][0][0] != CommentMarker
  {
    var lines := Split(text, Newline);
    assert forall j :: 0 <= j < |lines| ==> Newline !in lines[j];
    RecordsShape(lines);
    RecordsOf(lines)
  }

  /** The records one line contributes: none for an empty or comment line,
      otherwise its comma-split fields, however many there are. */
  function LineRecords(line: string): (records: seq<Row>)
    ensures records == [] <==> IsSkipped(StripCR(line))
  {
    if IsSkipped(StripCR(line)) then [] else [Split(StripCR(line), Comma)]
  }

  /** A single line yields exactly its own records. */
  lemma RecordsOfLine(line: string)
    ensures RecordsOf([line]) == LineRecords(line)
  {
    assert [line][1..] == [];
  }

  /** The records of consecutive runs of lines are the records of each run,
      in order. */
  lemma {:induction false} RecordsOfAppend(a: seq<string>, b: seq<string>)
    ensures RecordsOf(a + b) == RecordsOf(a) + RecordsOf(b)
  {
    if |a| > 0 {
      assert (a + b)[0] == a[0] && (a + b)[1..] == a[1..] + b;
      RecordsOfAppend(a[1..], b);
    } else {
      assert a + b == b;
    }
  }

  /** The first line of a text contributes its records, followed by the
      records of the rest of the text. */
  lemma TokenizeFirstLine(line: string, rest: string)
    requires Newline !in line
    requires QuoteFree(line + [Newline] + rest)
    ensures QuoteFree(rest)
    ensures Tokenize(line + [Newline] + rest) == LineRecords(line) + Tokenize(rest)
  {
    var lines, tail := Split(line + [Newline] + rest, Newline), Split(rest, Newline);
    SplitAtFirst(line, rest, Newline);
    assert lines == [line] + tail;
    assert forall j :: 0 <= j < |tail| ==> tail[j] == lines[j + 1];
    assert lines[1..] == tail;
  }

  /** A text without a newline is one line and yields that line's records. */
  lemma TokenizeLastLine(line: string)
    requires Newline !in line
    requires QuoteFree(line)
    ensures Tokenize(line) == LineRecords(line)
  {
    SplitNoSeparator(line, Newline);
    RecordsOfLine(line);
  }

  /** A data record that `ReadCSV` accepts: it has the five fields it indexes,
      field 3 parses as a number and field 4 as a `2006-01-02` date. */
  predicate RowOk(row: Row, parseFloat: FloatParser)
  {
    |row| >= 5 && parseFloat(row[3]).Some? && ParseDate(row[4]).Some?
  }

  /** `d` is what `ReadCSV` builds from `row`: name from field 0, category
      from field 1, price from field 3, date from field 4. */
  predicate Decodes(d: PriceData, row: Row, parseFloat: FloatParser)
  {
    && |row| >= 5
    && d.name == row[0]
    && d.category == row[1]
    && parseFloat(row[3]) == Some(d.price)
    && ParseDate(row[4]) == Some(d.createDate)
  }

  /** The body of the read loop for record number `i`. The price is parsed
      before the date is indexed, so a four-field record with a bad price
      reports the price. */
  function ParseRecord(row: Row, i: nat, parseFloat: FloatParser): (r: Result<PriceData, CsvError>)
    ensures r.Success? <==> RowOk(row, parseFloat)
    ensures r.Success? ==> Decodes(r.value, row, parseFloat)
    ensures r.Failure? ==> !r.error.NoHeader? && r.error.row == i
    ensures |row| < 4 ==> r == Failure(RowTooShort(i))
    ensures |row| >= 4 && parseFloat(row[3]).None? ==> r == Failure(BadPrice(i))
    ensures |row| == 4 && parseFloat(row[3]).Some? ==> r == Failure(RowTooShort(i))
    ensures |row| >= 5 && parseFloat(row[3]).Some? && ParseDate(row[4]).None? ==> r == Failure(BadDate(i))
  {
    if |row| < 4 then Failure(RowTooShort(i))
    else
      match parseFloat(row[3])
      case None => Failure(BadPrice(i))
      case Some(price) =>
        if |row| < 5 then Failure(RowTooShort(i))
        else
          match ParseDate(row[4])
          case None => Failure(BadDate(i))
          case Some(date) => Success(PriceData(row[0], row[1], price, date))
  }

  /** The read loop over `rows`, whose first element is record number `first`:
      stops at the first record that fails. */
  function ParseRows(rows: seq<Row>, first: nat, parseFloat: FloatParser): (r: Result<seq<PriceData>, CsvError>)
    ensures r.Success? <==> forall k :: 0 <= k < |rows| ==> RowOk(rows[k], parseFloat)
    ensures r.Success? ==> |r.value| == |rows|
    ensures r.Success? ==> forall k :: 0 <= k < |rows| ==> Decodes(r.value[k], rows[k], parseFloat)
    ensures r.Failure? ==> && !r.error.NoHeader?
                           && first <= r.error.row < first + |rows|
                           && !RowOk(rows[r.error.row - first], parseFloat)
                           && forall k :: 0 <= k < r.error.row - first ==> RowOk(rows[k], parseFloat)
    ensures r.Failure? ==> r.error == ParseRecord(rows[r.error.row - first], r.error.row, parseFloat).error
    decreases |rows|
  {
    if |rows| == 0 then Success([])
    else
      match ParseRecord(rows[0], first, parseFloat)
      case Failure(e) => Failure(e)
      case Success(d) =>
        match ParseRows(rows[1..], first + 1, parseFloat)
        case Failure(e) => Failure(e)
        case Success(ds) => Success([d] + ds)
  }

  /** `ReadCSV` on tokenised records: the first record is a header and is
      dropped unread; every other record becomes one `PriceData`, in order, or
      the whole call fails at the first bad record and returns no data. */
  function ReadRecords(records: seq<Row>, parseFloat: FloatParser): (r: Result<seq<PriceData>, CsvError>)
    ensures r == Failure(NoHeader) <==> |records| == 0
    ensures r.Success? <==> |records| >= 1 && forall k :: 1 <= k < |records| ==> RowOk(records[k], parseFloat)
    ensures r.Success? ==> |r.value| == |records| - 1
    ensures r.Success? ==> forall k :: 0 <= k < |r.value| ==> Decodes(r.value[k], records[k + 1], parseFloat)
    ensures r.Failure? && |records| >= 1 ==>
      && !r.error.NoHeader?
      && 1 <= r.error.row < |records|
      && !RowOk(records[r.error.row], parseFloat)
      && forall k :: 1 <= k < r.error.row ==> RowOk(records[k], parseFloat)
    ensures r.Failure? && |records| >= 1 ==> r.error == ParseRecord(records[r.error.row], r.error.row, parseFloat).error
  {
    if |records| == 0 then Failure(NoHeader)
    else ParseRows(records[1..], 1, parseFloat)
  }

  /** A record decodes to at most one `PriceData`. */
  lemma DecodesUnique(d1: PriceData, d2: PriceData, row: Row, parseFloat: FloatParser)
    requires Decodes(d1, row, parseFloat) && Decodes(d2, row, parseFloat)
    ensures d1 == d2
  {
  }

  /** When every data record decodes to the corresponding element of `ds`,
      reading the records yields exactly `ds`. */
  lemma ReadRecordsExactly(records: seq<Row>, ds: seq<PriceData>, parseFloat: FloatParser)
    requires |records| >= 1 && |ds| == |records| - 1
    requires forall k :: 0 <= k < |ds| ==> Decodes(ds[k], records[k + 1], parseFloat)
    ensures ReadRecords(records, parseFloat) == Success(ds)
  {
    assert forall k :: 1 <= k < |records| ==> RowOk(records[k], parseFloat) by {
      forall k | 1 <= k < |records|
        ensures RowOk(records[k], parseFloat)
      {
        assert Decodes(ds[k - 1], records[k], parseFloat);
      }
    }
    var r := ReadRecords(records, parseFloat);
    forall k | 0 <= k < |ds|
      ensures r.value[k] == ds[k]
    {
      DecodesUnique(r.value[k], ds[k], records[k + 1], parseFloat);
    }
    assert r.value == ds;
  }

  /** `ReadCSV` on the text of the payload. */
  function ReadCsv(text: string, parseFloat: FloatParser): (r: Result<seq<PriceData>, CsvError>)
    requires QuoteFree(text)
    ensures r == Failure(NoHeader) <==> |Tokenize(text)| == 0
    ensures r.Success? ==> |r.value| == |Tokenize(text)| - 1
  {
    ReadRecords(Tokenize(text), parseFloat)
  }

  /** The header is dropped without being inspected: any first record gives the
      same outcome. */
  lemma HeaderNotInspected(h1: Row, h2: Row, rows: seq<Row>, parseFloat: FloatParser)
    ensures ReadRecords([h1] + rows, parseFloat) == ReadRecords([h2] + rows, parseFloat)
  {
    assert ([h1] + rows)[1..] == rows == ([h2] + rows)[1..];
  }

  /** A text whose every line is empty or a comment has no header record, so
      the call fails. */
  lemma {:induction false} CommentsOnlyHasNoHeader(lines: seq<string>, parseFloat: FloatParser)
    requires forall k :: 0 <= k < |lines| ==> IsSkipped(StripCR(lines[k]))
    ensures RecordsOf(lines) == []
    ensures ReadRecords(RecordsOf(lines), parseFloat) == Failure(NoHeader)
  {
    if |lines| > 0 {
      CommentsOnlyHasNoHeader(lines[1..], parseFloat);
    }
  }

  /** Field 2 and every field after field 4 are ignored. */
  lemma UnusedFieldsIgnored(row: Row, other: Row, i: nat, parseFloat: FloatParser)
    requires |row| >= 5 && |other| >= 5
    requires row[0] == other[0] && row[1] == other[1] && row[3] == other[3] && row[4] == other[4]
    ensures ParseRecord(row, i, parseFloat) == ParseRecord(other, i, parseFloat)
  {
  }

  /** A batch in the four-column layout name, category, price, date is never
      accepted: every such record lacks field 4. */
  lemma FourColumnLayoutRefused(records: seq<Row>, parseFloat: FloatParser)
    requires |records| >= 2
    requires forall k :: 1 <= k < |records| ==> |records[k]| == 4
    ensures ReadRecords(records, parseFloat).Failure?
    ensures ReadRecords(records, parseFloat).error in {RowTooShort(1), BadPrice(1)}
  {
    assert !RowOk(records[1], parseFloat);
  }
}

=== FILE: csv_writer.dfy ===
/** The CSV writer the export uses: comma-separated fields, "\n" after each
    record, and a field quoted (inner quotes doubled) only when it has to be. */
module CsvWriter {
  import opened Text

  /** White space as the writer's leading-rune test sees it. */
  predicate IsSpace(c: char)
  {
    || c == '\t' || c == '\n' || c == '\U{000B}' || c == '\U{000C}' || c == '\r' || c == ' '
    || c == '\U{0085}' || c == '\U{00A0}' || c == '\U{1680}'
    || ('\U{2000}' <= c <= '\U{200A}')
    || c == '\U{2028}' || c == '\U{2029}' || c == '\U{202F}' || c == '\U{205F}' || c == '\U{3000}'
  }

  /** A field the writer encloses in quotes: non-empty, and either the
      two-character text `\.`, or holding a comma, quote, carriage return or
      newline, or starting with white space. */
  predicate NeedsQuotes(field: string)
  {
    && field != ""
    && (|| field == "\\."
        || Comma in field || '"' in field || CarriageReturn in field || Newline in field
        || IsSpace(field[0]))
  }

  /** Every quote doubled. */
  function DoubleQuotes(field: string): (r: string)
    ensures |r| >= |field|
    ensures '"' !in field ==> r == field
  {
    if |field| == 0 then ""
    else (if field[0] == '"' then "\"\"" else [field[0]]) + DoubleQuotes(field[1..])
  }

  /** Reading a quoted field's body: every pair of quotes stands for one. */
  function CollapseQuotes(s: string): string
  {
    if |s| >= 2 && s[0] == '"' && s[1] == '"' then "\"" + CollapseQuotes(s[2..])
    else if |s| == 0 then ""
    else [s[0]] + CollapseQuotes(s[1..])
  }

  /** Collapsing the doubled quotes restores the field. */
  lemma {:induction false} DoubleQuotesRoundTrip(field: string)
    ensures CollapseQuotes(DoubleQuotes(field)) == field
  {
    if |field| > 0 {
      DoubleQuotesRoundTrip(field[1..]);
      var rest := DoubleQuotes(field[1..]);
      if field[0] == '"' {
        assert DoubleQuotes(field) == "\"\"" + rest;
        assert (("\"\"" + rest)[2..]) == rest;
      } else {
        assert DoubleQuotes(field) == [field[0]] + rest;
        assert ([field[0]] + rest)[1..] == rest;
      }
      assert field == [field[0]] + field[1..];
    }
  }

  /** One field as written. */
  function QuoteField(field: string): (w: string)
    ensures !NeedsQuotes(field) ==> w == field
    ensures NeedsQuotes(field) ==>
      |w| >= |field| + 2 && w[0] == '"' && w[|w| - 1] == '"' && CollapseQuotes(w[1..|w| - 1]) == field
  {
    if NeedsQuotes(field) then
      var w := "\"" + DoubleQuotes(field) + "\"";
      assert w[1..|w| - 1] == DoubleQuotes(field);
      DoubleQuotesRoundTrip(field);
      w
    else field
  }

  /** One record as written, without its line terminator. */
  function FormatLine(row: seq<string>): string
  {
    Join(seq(|row|, i requires 0 <= i < |row| => QuoteField(row[i])), Comma)
  }

  /** Records written one after another, each followed by "\n". */
  function Serialize(rows: seq<seq<string>>): string
  {
    if |rows| == 0 then "" else FormatLine(rows[0]) + [Newline] + Serialize(rows[1..])
  }

  /** A record none of whose fields needs quoting is written as its fields
      joined by commas. */
  lemma PlainLine(row: seq<string>)
    requires forall i :: 0 <= i < |row| ==> !NeedsQuotes(row[i])
    ensures FormatLine(row) == Join(row, Comma)
  {
    assert seq(|row|, i requires 0 <= i < |row| => QuoteField(row[i])) == row;
  }
}

=== FILE: dates.dfy ===
/** Calendar dates in the Go layout `2006-01-02`: the `full-date` production of
    section 5.6 of RFC 3339, with the day-of-month limits of section 5.7
    (Gregorian leap years). */
module Dates {
  import opened Wrappers
  import opened Decimal

  datatype Date = Date(year: int, month: int, day: int)

  /** Gregorian leap year. */
  predicate IsLeap(year: int)
  {
    year % 4 == 0 && (year % 100 != 0 || year % 400 == 0)
  }

  /** Number of days in `month` (1..12) of `year`. */
  function DaysIn(month: int, year: int): (n: int)
    requires 1 <= month <= 12
    ensures 28 <= n <= 31
    ensures n == 29 <==> month == 2 && IsLeap(year)
    ensures n == 28 <==> month == 2 && !IsLeap(year)
    ensures n == 30 <==> month in {4, 6, 9, 11}
  {
    if month == 2 then (if IsLeap(year) then 29 else 28)
    else if month in {4, 6, 9, 11} then 30
    else 31
  }

  /** A date the layout can produce: a four-digit year, a month 1..12 and a day
      within that month. */
  predicate IsValid(d: Date)
  {
    0 <= d.year <= 9999 && 1 <= d.month <= 12 && 1 <= d.day <= DaysIn(d.month, d.year)
  }

  type ValidDate = d: Date | IsValid(d) witness Date(1970, 1, 1)

  /** `time.Time.Format("2006-01-02")`: zero-padded year, month and day. */
  function FormatDate(d: ValidDate): (s: string)
    ensures |s| == 10 && s[4] == '-' && s[7] == '-'
    ensures AllDigits(s[..4]) && AllDigits(s[5..7]) && AllDigits(s[8..])
    ensures Value(s[..4]) == d.year && Value(s[5..7]) == d.month && Value(s[8..]) == d.day
  {
    var s := Fixed(d.year, 4) + "-" + Fixed(d.month, 2) + "-" + Fixed(d.day, 2);
    assert s[..4] == Fixed(d.year, 4) && s[5..7] == Fixed(d.month, 2) && s[8..] == Fixed(d.day, 2);
    FixedValue(d.year, 4);
    FixedValue(d.month, 2);
    FixedValue(d.day, 2);
    s
  }

  /** `time.Parse("2006-01-02", s)`: exactly four digits, a dash, two digits
      naming a month, a dash and two digits naming a day of that month, and
      nothing else. A successful parse formats back to `s`. */
  function ParseDate(s: string): (r: Option<ValidDate>)
    ensures r.Some? ==> FormatDate(r.value) == s
    ensures r.Some? ==> |s| == 10 && r.value == Date(Value(s[..4]), Value(s[5..7]), Value(s[8..]))
    ensures r.Some? <==>
      |s| == 10 && AllDigits(s[..4]) && s[4] == '-' && AllDigits(s[5..7]) && s[7] == '-' && AllDigits(s[8..])
      && 1 <= Value(s[5..7]) <= 12 && 1 <= Value(s[8..]) <= DaysIn(Value(s[5..7]), Value(s[..4]))
  {
    if |s| == 10 && AllDigits(s[..4]) && s[4] == '-' && AllDigits(s[5..7]) && s[7] == '-' && AllDigits(s[8..]) then
      var year, month, day := Value(s[..4]), Value(s[5..7]), Value(s[8..]);
      if 1 <= month <= 12 && 1 <= day <= DaysIn(month, year) then
        var d := Date(year, month, day);
        ValueFixed(s[..4]);
        ValueFixed(s[5..7]);
        ValueFixed(s[8..]);
        assert s == s[..4] + "-" + s[5..7] + "-" + s[8..];
        Some(d)
      else None
    else None
  }

  /** Formatting a valid date and parsing the text gives the date back. */
  lemma FormatThenParse(d: ValidDate)
    ensures ParseDate(FormatDate(d)) == Some(d)
  {
  }

  /** The strings the parser accepts are exactly the formatted valid dates. */
  lemma AcceptedAreFormatted(s: string)
    ensures ParseDate(s).Some? <==> exists d: ValidDate :: FormatDate(d) == s
  {
    if exists d: ValidDate :: FormatDate(d) == s {
      var d: ValidDate :| FormatDate(d) == s;
      FormatThenParse(d);
    }
  }

  /** Parse of a text with digits at the digit positions and dashes between. */
  lemma ParseShape(s: string, year: nat, month: nat, day: nat)
    requires |s| == 10 && s[4] == '-' && s[7] == '-'
    requires AllDigits(s[..4]) && AllDigits(s[5..7]) && AllDigits(s[8..])
    requires Value(s[..4]) == year && Value(s[5..7]) == month && Value(s[8..]) == day
    ensures ParseDate(s).Some? <==> 1 <= month <= 12 && 1 <= day <= DaysIn(month, year)
  {
  }

  /** February 29th is accepted in 2024, a year divisible by 4. */
  lemma LeapDay2024Accepted()
    ensures ParseDate("2024-02-29").Some?
  {
    var s := "2024-02-29";
    assert s[..4] == "2024" && s[5..7] == "02" && s[8..] == "29";
    Value4("2024");
    Value2("02");
    Value2("29");
    ParseShape(s, 2024, 2, 29);
  }

  /** February 29th is accepted in 2000, a year divisible by 400. */
  lemma LeapDay2000Accepted()
    ensures ParseDate("2000-02-29").Some?
  {
    var s := "2000-02-29";
    assert s[..4] == "2000" && s[5..7] == "02" && s[8..] == "29";
    Value4("2000");
    Value2("02");
    Value2("29");
    ParseShape(s, 2000, 2, 29);
  }

  /** February 29th is refused in 2023, a year not divisible by 4. */
  lemma LeapDay2023Refused()
    ensures ParseDate("2023-02-29").None?
  {
    var s := "2023-02-29";
    assert s[..4] == "2023" && s[5..7] == "02" && s[8..] == "29";
    Value4("2023");
    Value2("02");
    Value2("29");
    ParseShape(s, 2023, 2, 29);
  }

  /** February 29th is refused in 1900, divisible by 100 but not by 400. */
  lemma LeapDay1900Refused()
    ensures ParseDate("1900-02-29").None?
  {
    var s := "1900-02-29";
    assert s[..4] == "1900" && s[5..7] == "02" && s[8..] == "29";
    Value4("1900");
    Value2("02");
    Value2("29");
    assert !IsLeap(1900) && DaysIn(2, 1900) == 28;
    ParseShape(s, 1900, 2, 29);
  }

  /** A one-digit month is refused: the layout element `01` takes exactly two digits. */
  lemma ShortMonthRefused()
    ensures ParseDate("2024-1-15").None?
  {
  }
}

=== FILE: decimal.dfy ===
/** Decimal digits: fixed-width zero-padded fields (the `2006`, `01` and `02`
    elements of a Go time layout) and `strconv.Itoa`. */
module Decimal {

  predicate IsDigit(c: char)
  {
    '0' <= c <= '9'
  }

  predicate AllDigits(s: string)
  {
    forall i :: 0 <= i < |s| ==> IsDigit(s[i])
  }

  function DigitValue(c: char): nat
    requires IsDigit(c)
  {
    c as int - '0' as int
  }

  function DigitChar(d: nat): (c: char)
    requires d < 10
    ensures IsDigit(c) && DigitValue(c) == d
  {
    ('0' as int + d) as char
  }

  function Pow10(n: nat): (p: nat)
    ensures p >= 1
  {
    if n == 0 then 1 else 10 * Pow10(n - 1)
  }

  /** The number a string of digits denotes, most significant digit first. */
  function Value(s: string): (v: nat)
    requires AllDigits(s)
    ensures v < Pow10(|s|)
  {
    if |s| == 0 then 0
    else
      assert AllDigits(s[..|s| - 1]);
      10 * Value(s[..|s| - 1]) + DigitValue(s[|s| - 1])
  }

  /** The value of a two-digit string, digit by digit. */
  lemma Value2(s: string)
    requires |s| == 2 && AllDigits(s)
    ensures Value(s) == 10 * DigitValue(s[0]) + DigitValue(s[1])
  {
    assert s[..1][..0] == [];
  }

  /** The value of a four-digit string, digit by digit. */
  lemma Value4(s: string)
    requires |s| == 4 && AllDigits(s)
    ensures Value(s) == 1000 * DigitValue(s[0]) + 100 * DigitValue(s[1]) + 10 * DigitValue(s[2]) + DigitValue(s[3])
  {
    assert s[..3][..2] == s[..2];
    assert AllDigits(s[..2]);
    Value2(s[..2]);
  }

  /** The lowest `width` decimal digits of `n`, zero-padded on the left. */
  function Fixed(n: nat, width: nat): (s: string)
    ensures |s| == width && AllDigits(s)
  {
    if width == 0 then "" else Fixed(n / 10, width - 1) + [DigitChar(n % 10)]
  }

  /** A number that fits in `width` digits is read back from its padded form. */
  lemma {:induction false} FixedValue(n: nat, width: nat)
    requires n < Pow10(width)
    ensures Value(Fixed(n, width)) == n
  {
    if width > 0 {
      var s := Fixed(n, width);
      assert s[..|s| - 1] == Fixed(n / 10, width - 1);
      FixedValue(n / 10, width - 1);
    }
  }

  /** A string of digits is the padded form of its own value. */
  lemma {:induction false} ValueFixed(s: string)
    requires AllDigits(s)
    ensures Fixed(Value(s), |s|) == s
  {
    if |s| > 0 {
      var init := s[..|s| - 1];
      assert AllDigits(init);
      ValueFixed(init);
      var v := Value(s);
      assert v / 10 == Value(init);
      assert v % 10 == DigitValue(s[|s| - 1]);
      assert s == init + [s[|s| - 1]];
    }
  }

  /** The shortest decimal form of `n`: no leading zero except in "0". */
  function NatString(n: nat): (s: string)
    ensures |s| >= 1 && AllDigits(s) && Value(s) == n
    ensures s[0] == '0' ==> s == "0"
  {
    if n < 10 then [DigitChar(n)]
    else
      var init := NatString(n / 10);
      var s := init + [DigitChar(n % 10)];
      assert s[..|s| - 1] == init;
      s
  }

  /** Two digit strings without leading zeros that denote the same number are equal. */
  lemma {:induction false} CanonicalUnique(s: string, t: string)
    requires |s| >= 1 && AllDigits(s) && (s[0] == '0' ==> s == "0")
    requires |t| >= 1 && AllDigits(t) && (t[0] == '0' ==> t == "0")
    requires Value(s) == Value(t)
    ensures s == t
    decreases |s|
  {
    if |s| == 1 || |t| == 1 {
      LeadingDigitBound(s);
      LeadingDigitBound(t);
      if |s| == 1 && |t| == 1 {
        assert DigitValue(s[0]) == DigitValue(t[0]);
      }
    } else {
      var si, ti := s[..|s| - 1], t[..|t| - 1];
      assert AllDigits(si) && AllDigits(ti);
      assert Value(si) == Value(s) / 10 && Value(ti) == Value(t) / 10;
      assert si[0] == s[0] && ti[0] == t[0];
      CanonicalUnique(si, ti);
      assert s == si + [s[|s| - 1]] && t == ti + [t[|t| - 1]];
    }
  }

  /** A digit string of two or more digits with a non-zero lead is at least 10. */
  lemma {:induction false} LeadingDigitBound(s: string)
    requires |s| >= 1 && AllDigits(s) && (s[0] == '0' ==> s == "0")
    ensures |s| >= 2 ==> Value(s) >= 10
    ensures |s| == 1 ==> Value(s) == DigitValue(s[0])
    decreases |s|
  {
    if |s| >= 2 {
      var init := s[..|s| - 1];
      assert AllDigits(init) && init[0] == s[0];
      if |init| >= 2 {
        LeadingDigitBound(init);
      } else {
        assert Value(init) == DigitValue(s[0]) >= 1;
      }
    }
  }

  /** `strconv.Itoa`: an optional minus sign followed by the shortest decimal
      form of the magnitude. */
  function Itoa(n: int): (s: string)
    ensures n < 0 ==> |s| >= 2 && s[0] == '-' && s[1..] == NatString(-n)
    ensures n >= 0 ==> s == NatString(n)
  {
    if n < 0 then "-" + NatString(-n) else NatString(n)
  }

  /** Different integers render differently, so distinct ids give distinct
      first fields in an export. */
  lemma ItoaInjective(a: int, b: int)
    requires Itoa(a) == Itoa(b)
    ensures a == b
  {
    var sa, sb := Itoa(a), Itoa(b);
    if a < 0 && b < 0 {
      assert Value(sa[1..]) == -a && Value(sb[1..]) == -b;
    } else if a >= 0 && b >= 0 {
      assert Value(sa) == a && Value(sb) == b;
    }
  }

  /** A rendered integer is never empty and never starts with a comment marker,
      a quote or white space. */
  lemma ItoaShape(n: int)
    ensures |Itoa(n)| >= 1
    ensures Itoa(n)[0] == '-' || IsDigit(Itoa(n)[0])
    ensures forall i :: 1 <= i < |Itoa(n)| ==> IsDigit(Itoa(n)[i])
  {
  }
}

=== FILE: export.dfy ===
/** The CSV half of `HandleGet`: a fixed header, then one row per entry the
    query yields, in the order it yields them. */
module Export {
  import opened Wrappers
  import opened Decimal
  import opened Dates
  import opened CsvReader
  import opened CsvWriter
  import opened Catalog

  /** `fmt.Sprintf("%.2f", _)`, kept abstract. */
  type PriceFormatter = real -> string

  const Header: Row := ["id", "product_name", "product_category", "product_price", "manufacture_date"]

  /** The query's failure points. `CursorStopsAt(k)` is an error that ends the
      row cursor after `k` rows: the loop reads `rows.Next()` until it is false
      and never asks `rows.Err()`. */
  datatype ExportOutage = Unhindered | QueryFails | ScanFails(row: nat) | CursorStopsAt(row: nat)

  datatype ExportError = QueryFailed | ScanFailed(row: nat)

  /** The fields written for one entry. */
  function ExportRow(e: Entry, formatPrice: PriceFormatter): (row: Row)
    ensures |row| == |Header|
    ensures e.id >= 0 ==> AllDigits(row[0]) && Value(row[0]) == e.id
    ensures e.id < 0 ==> |row[0]| >= 2 && row[0][0] == '-' && AllDigits(row[0][1..]) && Value(row[0][1..]) == -e.id
    ensures row[1] == e.name && row[2] == e.category && row[3] == formatPrice(e.price)
    ensures ParseDate(row[4]) == Some(e.date)
  {
    FormatThenParse(e.date);
    [Itoa(e.id), e.name, e.category, formatPrice(e.price), FormatDate(e.date)]
  }

  /** Header first, then one row per entry in order. */
  function ExportRows(entries: seq<Entry>, formatPrice: PriceFormatter): (rows: seq<Row>)
    ensures |rows| == |entries| + 1 && rows[0] == Header
    ensures forall i :: 0 <= i < |entries| ==> rows[i + 1] == ExportRow(entries[i], formatPrice)
  {
    var body := seq(|entries|, i requires 0 <= i < |entries| => ExportRow(entries[i], formatPrice));
    assert forall i :: 0 <= i < |entries| ==> ([Header] + body)[i + 1] == body[i];
    [Header] + body
  }

  /** `HandleGet` up to the archive: the CSV text, or the failure that stops
      it. `entries` is the table in the order the query returns it (there is
      no `ORDER BY`). */
  function HandleGet(entries: seq<Entry>, outage: ExportOutage, formatPrice: PriceFormatter): (r: Result<string, ExportError>)
    ensures r.Failure? <==> outage.QueryFails? || (outage.ScanFails? && outage.row < |entries|)
    ensures r.Success? && !outage.CursorStopsAt? ==> r.value == Serialize(ExportRows(entries, formatPrice))
    ensures r.Success? && outage.CursorStopsAt? ==>
      r.value == Serialize(ExportRows(entries[..if outage.row < |entries| then outage.row else |entries|], formatPrice))
  {
    match outage
    case QueryFails => Failure(QueryFailed)
    case ScanFails(k) =>
      if k < |entries| then Failure(ScanFailed(k))
      else Success(Serialize(ExportRows(entries, formatPrice)))
    case CursorStopsAt(k) =>
      var n := if k < |entries| then k else |entries|;
      Success(Serialize(ExportRows(entries[..n], formatPrice)))
    case Unhindered => Success(Serialize(ExportRows(entries, formatPrice)))
  }

  /** A cursor that breaks early still yields a successful export, holding the
      header and only the rows read so far. */
  lemma CursorErrorTruncatesSilently(entries: seq<Entry>, k: nat, formatPrice: PriceFormatter)
    requires k < |entries|
    ensures HandleGet(entries, CursorStopsAt(k), formatPrice).Success?
    ensures HandleGet(entries, CursorStopsAt(k), formatPrice).value
            == Serialize(ExportRows(entries[..k], formatPrice))
  {
  }

  /** When the query yields the catalog's entries in some order, the export
      has one row per catalog entry: every entry's row appears, and every row
      after the header is the row of some entry. */
  lemma ExportCoversCatalog(store: Store, order: seq<Entry>, formatPrice: PriceFormatter)
    requires multiset(order) == multiset(store.entries)
    ensures |ExportRows(order, formatPrice)| == |store.entries| + 1
    ensures forall e :: e in store.entries ==>
      exists i :: 1 <= i < |order| + 1 && ExportRows(order, formatPrice)[i] == ExportRow(e, formatPrice)
    ensures forall i :: 1 <= i < |order| + 1 ==>
      exists e :: e in store.entries && ExportRows(order, formatPrice)[i] == ExportRow(e, formatPrice)
  {
    var rows := ExportRows(order, formatPrice);
    assert |order| == |multiset(order)| == |multiset(store.entries)| == |store.entries|;
    forall e | e in store.entries
      ensures exists i :: 1 <= i < |order| + 1 && rows[i] == ExportRow(e, formatPrice)
    {
      assert e in multiset(store.entries);
      assert e in order;
      var k :| 0 <= k < |order| && order[k] == e;
      assert rows[k + 1] == ExportRow(e, formatPrice);
    }
    forall i | 1 <= i < |order| + 1
      ensures exists e :: e in store.entries && rows[i] == ExportRow(e, formatPrice)
    {
      var e := order[i - 1];
      assert e in multiset(order);
      assert e in multiset(store.entries);
      assert rows[i] == ExportRow(e, formatPrice);
    }
  }
}

=== FILE: listing.dfy ===
/** Locating the CSV payload among the entries of the extraction directory:
    Go's `filepath.Ext` on a slash-separated path and `findFirstCSVFile`. */
module Listing {
  import opened Wrappers

  /** One entry of a directory listing, with the bytes of the file when it is
      not a directory. */
  datatype DirEntry = DirEntry(name: string, isDir: bool, content: string)

  datatype ListingError = NoCsvFile

  const Separator: char := '/'
  const CsvExt: string := ".csv"

  /** `filepath.Ext` scanned from position `i` leftwards: the suffix of `path`
      that starts at the last dot before `i`, provided no separator lies between
      that dot and `i`; otherwise empty. */
  function ExtBefore(path: string, i: nat): (ext: string)
    requires i <= |path|
    ensures ext != "" ==>
      && ext[0] == '.' && |path| - i < |ext| <= |path| && path[|path| - |ext|..] == ext
      && forall k :: |path| - |ext| < k < i ==> path[k] != '.' && path[k] != Separator
    ensures ext == "" ==> forall k :: 0 <= k < i && path[k] == '.' ==> Separator in path[k + 1..i]
    decreases i
  {
    if i == 0 || path[i - 1] == Separator then ""
    else if path[i - 1] == '.' then path[i - 1..]
    else ExtBefore(path, i - 1)
  }

  /** `filepath.Ext`: everything from the last dot of the final path
      element, or empty when that element has no dot. */
  function Ext(path: string): string
  {
    ExtBefore(path, |path|)
  }

  /** What `Ext` returns: either a suffix that starts with the last dot and
      holds no other dot and no separator, or empty when every dot of the path
      lies before a separator. */
  lemma ExtShape(path: string)
    ensures var ext := Ext(path);
      ext != "" ==>
        && ext[0] == '.' && |ext| <= |path| && path[|path| - |ext|..] == ext
        && forall k :: 1 <= k < |ext| ==> ext[k] != '.' && ext[k] != Separator
    ensures Ext(path) == "" ==> forall k :: 0 <= k < |path| && path[k] == '.' ==> Separator in path[k + 1..]
  {
    var ext := Ext(path);
    assert ext != "" ==> forall k :: 1 <= k < |ext| ==> ext[k] == path[|path| - |ext| + k];
  }

  /** The extension is exactly ".csv" precisely when the name ends in ".csv":
      the comparison is case-sensitive and looks only at the last suffix. */
  lemma CsvExtIff(name: string)
    ensures Ext(name) == CsvExt <==> |name| >= 4 && name[|name| - 4..] == CsvExt
  {
    var ext := Ext(name);
    ExtShape(name);
    if |name| >= 4 && name[|name| - 4..] == CsvExt {
      var n := |name|;
      assert name[n - 4] == '.' && name[n - 3] == 'c' && name[n - 2] == 's' && name[n - 1] == 'v';
    }
  }

  /** For example, "a.CSV" is not a CSV payload, while
      "b.tar.csv" is. */
  lemma ExtExamples()
    ensures Ext("a.CSV") != CsvExt
    ensures Ext("b.tar.csv") == CsvExt
  {
    CsvExtIff("a.CSV");
    var b := "b.tar.csv";
    assert b[|b| - 4..] == CsvExt;
    CsvExtIff(b);
  }

  /** A listing entry that `findFirstCSVFile` accepts: a file, not a directory,
      whose extension is ".csv". Nothing below the entry is looked at. */
  predicate IsCsvFile(e: DirEntry)
  {
    !e.isDir && Ext(e.name) == CsvExt
  }

  /** First CSV file at position `i` or later. */
  function FindFrom(listing: seq<DirEntry>, i: nat): (r: Option<nat>)
    requires i <= |listing|
    ensures r.Some? ==> i <= r.value < |listing| && IsCsvFile(listing[r.value])
                        && forall j :: i <= j < r.value ==> !IsCsvFile(listing[j])
    ensures r.None? ==> forall j :: i <= j < |listing| ==> !IsCsvFile(listing[j])
    decreases |listing| - i
  {
    if i == |listing| then None
    else if IsCsvFile(listing[i]) then Some(i)
    else FindFrom(listing, i + 1)
  }

  /** `findFirstCSVFile`: the position of the first CSV file in listing order,
      or an error when the listing holds none. */
  function FindFirstCsv(listing: seq<DirEntry>): (r: Result<nat, ListingError>)
    ensures r.Success? ==> r.value < |listing| && IsCsvFile(listing[r.value])
    ensures r.Success? ==> forall j :: 0 <= j < r.value ==> !IsCsvFile(listing[j])
    ensures r.Failure? <==> forall j :: 0 <= j < |listing| ==> !IsCsvFile(listing[j])
  {
    match FindFrom(listing, 0)
    case Some(i) => Success(i)
    case None => Failure(NoCsvFile)
  }

  /** A directory whose name ends in ".csv" is passed over, and so is
      everything in front of the chosen file. */
  lemma DirectoryNamedCsvSkipped(dir: DirEntry, rest: seq<DirEntry>)
    requires dir.isDir
    ensures FindFirstCsv([dir] + rest).Success? <==> FindFirstCsv(rest).Success?
    ensures FindFirstCsv(rest).Success? ==> FindFirstCsv([dir] + rest).value == FindFirstCsv(rest).value + 1
  {
    var l := [dir] + rest;
    assert forall j :: 1 <= j < |l| ==> l[j] == rest[j - 1];
    if FindFirstCsv(rest).Success? {
      var k := FindFirstCsv(rest).value;
      assert IsCsvFile(l[k + 1]);
    }
  }

  /** A CSV file at the head of the listing is the one chosen, whatever
      follows it. */
  lemma FirstCsvChosen(first: DirEntry, rest: seq<DirEntry>)
    requires IsCsvFile(first)
    ensures FindFirstCsv([first] + rest) == Success(0)
  {
    assert ([first] + rest)[0] == first;
  }

  /** The scanned directory holds the saved upload under the client's file
      name next to the extracted entries. An upload named "a.csv" that the
      directory lists ahead of an extracted "b.csv" is itself the file chosen,
      and its archive bytes are what gets read. */
  lemma SavedUploadChosen(archive: string, extracted: string)
    ensures FindFirstCsv([DirEntry("a.csv", false, archive), DirEntry("b.csv", false, extracted)]) == Success(0)
  {
    var a := "a.csv";
    assert a[|a| - 4..] == CsvExt;
    CsvExtIff(a);
    FirstCsvChosen(DirEntry(a, false, archive), [DirEntry("b.csv", false, extracted)]);
  }
}

=== FILE: post.dfy ===
/** `HandlePost` after extraction: pick the payload among the extracted
    entries, read it, then run the ingest transaction. */
module Post {
  import opened Wrappers
  import opened Listing
  import opened CsvReader
  import opened Catalog
  import opened Transaction

  datatype PostError = NoPayload | Unreadable(csv: CsvError) | Storage(storage: IngestError)

  datatype PostOutcome = PostOutcome(store: Store, reply: Result<Response, PostError>)

  /** The CSV file that would be read, if there is one, is quote-free (the
      reader is modelled on quote-free records only). Later CSV files are
      never opened, so their contents do not matter. */
  predicate QuoteFreePayload(listing: seq<DirEntry>)
  {
    FindFirstCsv(listing).Success? ==> QuoteFree(listing[FindFirstCsv(listing).value].content)
  }

  /** The batch the payload yields, when a payload exists and reads cleanly. */
  function Payload(listing: seq<DirEntry>, parseFloat: FloatParser): (r: Result<seq<PriceData>, PostError>)
    requires QuoteFreePayload(listing)
    ensures FindFirstCsv(listing).Failure? <==> r == Failure(NoPayload)
    ensures FindFirstCsv(listing).Success? ==>
      var text := listing[FindFirstCsv(listing).value].content;
      match ReadCsv(text, parseFloat)
      case Success(batch) => r == Success(batch)
      case Failure(e) => r == Failure(Unreadable(e))
  {
    match FindFirstCsv(listing)
    case Failure(_) => Failure(NoPayload)
    case Success(i) =>
      match ReadCsv(listing[i].content, parseFloat)
      case Failure(e) => Failure(Unreadable(e))
      case Success(batch) => Success(batch)
  }

  /** The whole request: no payload or a payload that does not read leaves the
      store untouched and never opens a transaction; otherwise the batch goes
      through the ingest transaction. */
  function HandlePost(store: Store, listing: seq<DirEntry>, parseFloat: FloatParser, outage: Outage): (out: PostOutcome)
    requires QuoteFreePayload(listing)
    ensures Payload(listing, parseFloat).Failure? ==>
      out == PostOutcome(store, Failure(Payload(listing, parseFloat).error))
    ensures Payload(listing, parseFloat).Success? ==>
      var batch := Payload(listing, parseFloat).value;
      && (Commits(|batch|, outage) ==> out.store.entries == store.entries + AsEntries(batch, store.nextId))
      && (!Commits(|batch|, outage) ==> out.store == store)
      && (out.reply.Success? <==> Commits(|batch|, outage) && !outage.AtAggregate? && |store.entries| + |batch| > 0)
      && (out.reply.Success? ==> out.reply.value.totalItems == |batch|)
      && (out.reply.Success? ==> out.reply.value.totalPrice == Sum(out.store.entries))
      && (out.reply.Success? ==> out.reply.value.totalCategories == |Categories(out.store.entries)|)
    ensures out.store != store ==> Payload(listing, parseFloat).Success?
  {
    match Payload(listing, parseFloat)
    case Failure(e) => PostOutcome(store, Failure(e))
    case Success(batch) =>
      var o := Ingest(store, batch, outage);
      match o.reply
      case Success(resp) => PostOutcome(o.store, Success(resp))
      case Failure(e) => PostOutcome(o.store, Failure(Storage(e)))
  }

  /** One bad record anywhere in the payload (an unparsable price such as
      "free", a malformed date, a missing field) fails the whole upload and
      commits nothing. */
  lemma BadRecordAbortsUpload(store: Store, listing: seq<DirEntry>, parseFloat: FloatParser, outage: Outage, k: nat)
    requires QuoteFreePayload(listing)
    requires FindFirstCsv(listing).Success?
    requires 1 <= k < |Tokenize(listing[FindFirstCsv(listing).value].content)|
    requires !RowOk(Tokenize(listing[FindFirstCsv(listing).value].content)[k], parseFloat)
    ensures HandlePost(store, listing, parseFloat, outage).store == store
    ensures HandlePost(store, listing, parseFloat, outage).reply.Failure?
    ensures HandlePost(store, listing, parseFloat, outage).reply.error.Unreadable?
  {
  }

  /** A listing without a CSV file (including one whose only ".csv" names are
      directories) fails before any parsing or storage step. */
  lemma NoPayloadNoChange(store: Store, listing: seq<DirEntry>, parseFloat: FloatParser, outage: Outage)
    requires forall i :: 0 <= i < |listing| ==> !IsCsvFile(listing[i])
    ensures HandlePost(store, listing, parseFloat, outage) == PostOutcome(store, Failure(NoPayload))
  {
  }

  /** The request depends on the listing only through the payload it yields. */
  lemma SamePayloadSameOutcome(store: Store, l1: seq<DirEntry>, l2: seq<DirEntry>, parseFloat: FloatParser, outage: Outage)
    requires QuoteFreePayload(l1) && QuoteFreePayload(l2)
    requires Payload(l1, parseFloat) == Payload(l2, parseFloat)
    ensures HandlePost(store, l1, parseFloat, outage) == HandlePost(store, l2, parseFloat, outage)
  {
  }

  /** Only the first CSV file is read: what follows it in the listing never
      changes the payload, quoted or not. */
  lemma LaterFilesIgnored(store: Store, first: DirEntry, rest: seq<DirEntry>, other: seq<DirEntry>,
                          parseFloat: FloatParser, outage: Outage)
    requires IsCsvFile(first) && QuoteFree(first.content)
    ensures QuoteFreePayload([first] + rest) && QuoteFreePayload([first] + other)
    ensures HandlePost(store, [first] + rest, parseFloat, outage) == HandlePost(store, [first] + other, parseFloat, outage)
  {
    var l1, l2 := [first] + rest, [first] + other;
    FirstCsvChosen(first, rest);
    FirstCsvChosen(first, other);
    assert l1[0] == first && l2[0] == first;
    assert Payload(l1, parseFloat) == Payload(l2, parseFloat);
    SamePayloadSameOutcome(store, l1, l2, parseFloat, outage);
  }
}

=== FILE: roundtrip.dfy ===
/** Reading an export's CSV text back with the payload reader. The writer
    emits the five export columns; the reader takes the name from column 0,
    the category from column 1 and skips column 2, so the name read back is
    the id text, the category read back is the product name, and the product
    category is lost. Price and date come back through columns 3 and 4. */
module RoundTrip {
  import opened Wrappers
  import opened Text
  import opened Decimal
  import opened Dates
  import opened CsvReader
  import opened CsvWriter
  import opened Catalog
  import opened Export

  /** A record the writer emits verbatim and the reader splits back unchanged:
      no field needs quoting and the line does not start like a comment or
      an empty line. */
  predicate Transparent(row: Row)
  {
    && |row| >= 1
    && (forall i :: 0 <= i < |row| ==> !NeedsQuotes(row[i]))
    && row[0] != "" && row[0][0] != CommentMarker
  }

  /** The written line of each record. */
  function LinesOf(rows: seq<Row>): (lines: seq<string>)
    ensures |lines| == |rows|
  {
    if |rows| == 0 then [] else [FormatLine(rows[0])] + LinesOf(rows[1..])
  }

  /** A character that no field holds and that is neither comma nor newline
      is absent from the written text. */
  lemma {:induction false} SerializeKeepsOut(rows: seq<Row>, x: char)
    requires x != Comma && x != Newline
    requires forall k :: 0 <= k < |rows| ==> Transparent(rows[k])
    requires forall k, i :: 0 <= k < |rows| && 0 <= i < |rows[k]| ==> x !in rows[k][i]
    ensures x !in Serialize(rows)
  {
    if |rows| > 0 {
      PlainLine(rows[0]);
      JoinKeepsOut(rows[0], Comma, x);
      SerializeKeepsOut(rows[1..], x);
    }
  }

  /** The written text splits at newlines into the written lines and a final
      empty piece. */
  lemma {:induction false} SerializedLines(rows: seq<Row>)
    requires forall k :: 0 <= k < |rows| ==> Transparent(rows[k])
    ensures Split(Serialize(rows), Newline) == LinesOf(rows) + [""]
  {
    if |rows| > 0 {
      var line := FormatLine(rows[0]);
      PlainLine(rows[0]);
      JoinKeepsOut(rows[0], Comma, Newline);
      SplitAtFirst(line, Serialize(rows[1..]), Newline);
      SerializedLines(rows[1..]);
      assert Serialize(rows) == line + [Newline] + Serialize(rows[1..]);
    }
  }

  /** The written line of a transparent record is kept by the reader and
      splits back into the record. */
  lemma LineTokenizes(row: Row)
    requires Transparent(row)
    ensures StripCR(FormatLine(row)) == FormatLine(row)
    ensures !IsSkipped(FormatLine(row))
    ensures Split(FormatLine(row), Comma) == row
  {
    var line := FormatLine(row);
    PlainLine(row);
    JoinKeepsOut(row, Comma, CarriageReturn);
    JoinStart(row, Comma);
    forall i | 0 <= i < |row|
      ensures Comma !in row[i]
    {
      assert !NeedsQuotes(row[i]);
    }
    SplitJoin(row, Comma);
  }

  /** A kept line contributes its fields as the next record. */
  lemma RecordsOfKept(lines: seq<string>)
    requires |lines| >= 1 && !IsSkipped(StripCR(lines[0]))
    ensures RecordsOf(lines) == [Split(StripCR(lines[0]), Comma)] + RecordsOf(lines[1..])
  {
  }

  /** Tokenising the written lines (and the empty piece after the last
      newline) gives the records back. */
  lemma {:induction false} LinesTokenize(rows: seq<Row>)
    requires forall k :: 0 <= k < |rows| ==> Transparent(rows[k])
    ensures RecordsOf(LinesOf(rows) + [""]) == rows
  {
    if |rows| == 0 {
      assert LinesOf(rows) + [""] == [""];
    } else {
      var line := FormatLine(rows[0]);
      var tail := LinesOf(rows[1..]) + [""];
      var lines := [line] + tail;
      assert LinesOf(rows) + [""] == lines;
      LineTokenizes(rows[0]);
      assert lines[0] == line && lines[1..] == tail;
      RecordsOfKept(lines);
      assert RecordsOf(lines) == [rows[0]] + RecordsOf(tail);
      LinesTokenize(rows[1..]);
      assert rows == [rows[0]] + rows[1..];
    }
  }

  /** Writing transparent records and reading the text back gives the
      records. */
  lemma TokenizeSerialize(rows: seq<Row>)
    requires forall k :: 0 <= k < |rows| ==> Transparent(rows[k])
    ensures '"' !in Serialize(rows) && QuoteFree(Serialize(rows))
    ensures Tokenize(Serialize(rows)) == rows
  {
    forall k, i | 0 <= k < |rows| && 0 <= i < |rows[k]|
      ensures '"' !in rows[k][i]
    {
      assert !NeedsQuotes(rows[k][i]);
    }
    SerializeKeepsOut(rows, '"');
    NoQuoteIsQuoteFree(Serialize(rows));
    SerializedLines(rows);
    LinesTokenize(rows);
  }

  /** Digits and dashes never need quoting. */
  lemma DigitTextPlain(s: string)
    requires forall i :: 0 <= i < |s| ==> IsDigit(s[i]) || s[i] == '-'
    ensures !NeedsQuotes(s)
  {
    if s != "" {
      assert !IsSpace(s[0]);
      assert s != "\\." by {
        if |s| == 2 { assert IsDigit(s[0]) || s[0] == '-'; }
      }
    }
  }

  /** The export's fields that the writer must not quote. */
  predicate PlainExport(entries: seq<Entry>, formatPrice: PriceFormatter)
  {
    forall i :: 0 <= i < |entries| ==>
      !NeedsQuotes(entries[i].name) && !NeedsQuotes(entries[i].category) && !NeedsQuotes(formatPrice(entries[i].price))
  }

  /** The header row is transparent. */
  lemma HeaderTransparent()
    ensures Transparent(Header)
  {
    assert forall i :: 0 <= i < |Header| ==> !NeedsQuotes(Header[i]);
  }

  /** A formatted date is digits and dashes. */
  lemma FormatDatePlain(date: ValidDate)
    ensures !NeedsQuotes(FormatDate(date))
  {
    var d := FormatDate(date);
    forall i | 0 <= i < |d|
      ensures IsDigit(d[i]) || d[i] == '-'
    {
      if i < 4 { assert d[i] == d[..4][i]; }
      else if 5 <= i < 7 { assert d[i] == d[5..7][i - 5]; }
      else if 8 <= i { assert d[i] == d[8..][i - 8]; }
    }
    DigitTextPlain(d);
  }

  /** The row of an entry with plainly written name, category and price is
      transparent. */
  lemma EntryRowTransparent(e: Entry, formatPrice: PriceFormatter)
    requires !NeedsQuotes(e.name) && !NeedsQuotes(e.category) && !NeedsQuotes(formatPrice(e.price))
    ensures Transparent(ExportRow(e, formatPrice))
  {
    ItoaPlain(e.id);
    FormatDatePlain(e.date);
  }

  /** A rendered integer never needs quoting. */
  lemma ItoaPlain(n: int)
    ensures !NeedsQuotes(Itoa(n))
  {
    ItoaShape(n);
    DigitTextPlain(Itoa(n));
  }

  /** With plainly written names, categories and prices, every export row is
      transparent. */
  lemma ExportTransparent(entries: seq<Entry>, formatPrice: PriceFormatter)
    requires PlainExport(entries, formatPrice)
    ensures forall k :: 0 <= k < |entries| + 1 ==> Transparent(ExportRows(entries, formatPrice)[k])
  {
    var rows := ExportRows(entries, formatPrice);
    forall k | 0 <= k < |rows|
      ensures Transparent(rows[k])
    {
      if k == 0 {
        HeaderTransparent();
      } else {
        EntryRowTransparent(entries[k - 1], formatPrice);
      }
    }
  }

  /** What the payload reader makes of an exported entry. */
  function Reimported(e: Entry, formatPrice: PriceFormatter, parseFloat: FloatParser): PriceData
    requires parseFloat(formatPrice(e.price)).Some?
  {
    PriceData(Itoa(e.id), e.name, parseFloat(formatPrice(e.price)).value, e.date)
  }

  /** Every formatted price parses back. */
  predicate PricesReparse(entries: seq<Entry>, formatPrice: PriceFormatter, parseFloat: FloatParser)
  {
    forall i :: 0 <= i < |entries| ==> parseFloat(formatPrice(entries[i].price)).Some?
  }

  /** What the payload reader makes of an export, entry by entry. */
  function ReimportedAll(entries: seq<Entry>, formatPrice: PriceFormatter, parseFloat: FloatParser): seq<PriceData>
    requires PricesReparse(entries, formatPrice, parseFloat)
  {
    seq(|entries|, i requires 0 <= i < |entries| => Reimported(entries[i], formatPrice, parseFloat))
  }

  /** The export's records, read as a payload, decode to the re-imported
      records. */
  lemma ExportRecordsRead(entries: seq<Entry>, formatPrice: PriceFormatter, parseFloat: FloatParser)
    requires PricesReparse(entries, formatPrice, parseFloat)
    ensures ReadRecords(ExportRows(entries, formatPrice), parseFloat)
            == Success(ReimportedAll(entries, formatPrice, parseFloat))
  {
    var rows := ExportRows(entries, formatPrice);
    var ds := ReimportedAll(entries, formatPrice, parseFloat);
    forall k | 0 <= k < |ds|
      ensures Decodes(ds[k], rows[k + 1], parseFloat)
    {
      assert rows[k + 1] == ExportRow(entries[k], formatPrice);
    }
    ReadRecordsExactly(rows, ds, parseFloat);
  }

  /** Feeding an export back into the payload reader succeeds and yields one
      record per entry, in order, with the id text as name, the product name
      as category, the re-parsed formatted price and the same date. */
  lemma ReimportShiftsColumns(entries: seq<Entry>, formatPrice: PriceFormatter, parseFloat: FloatParser)
    requires PlainExport(entries, formatPrice)
    requires PricesReparse(entries, formatPrice, parseFloat)
    ensures '"' !in Serialize(ExportRows(entries, formatPrice)) && QuoteFree(Serialize(ExportRows(entries, formatPrice)))
    ensures ReadCsv(Serialize(ExportRows(entries, formatPrice)), parseFloat)
            == Success(ReimportedAll(entries, formatPrice, parseFloat))
  {
    var rows := ExportRows(entries, formatPrice);
    ExportTransparent(entries, formatPrice);
    TokenizeSerialize(rows);
    ExportRecordsRead(entries, formatPrice, parseFloat);
  }

  /** When the price formatter's output parses back to the price, the price
      and date survive the round trip, while the name and category columns
      come back shifted. */
  lemma ReimportKeepsPriceAndDate(entries: seq<Entry>, formatPrice: PriceFormatter, parseFloat: FloatParser)
    requires PlainExport(entries, formatPrice)
    requires forall i :: 0 <= i < |entries| ==> parseFloat(formatPrice(entries[i].price)) == Some(entries[i].price)
    ensures '"' !in Serialize(ExportRows(entries, formatPrice)) && QuoteFree(Serialize(ExportRows(entries, formatPrice)))
    ensures ReadCsv(Serialize(ExportRows(entries, formatPrice)), parseFloat)
            == Success(seq(|entries|, i requires 0 <= i < |entries| =>
                 PriceData(Itoa(entries[i].id), entries[i].name, entries[i].price, entries[i].date)))
  {
    assert PricesReparse(entries, formatPrice, parseFloat);
    ReimportShiftsColumns(entries, formatPrice, parseFloat);
    var shifted := ReimportedAll(entries, formatPrice, parseFloat);
    var expected := seq(|entries|, i requires 0 <= i < |entries| =>
      PriceData(Itoa(entries[i].id), entries[i].name, entries[i].price, entries[i].date));
    assert forall i :: 0 <= i < |entries| ==> shifted[i] == expected[i];
    assert shifted == expected;
  }
}

=== FILE: text.dfy ===
/** Splitting a string at a separator character and joining the pieces back:
    the line and field structure of a quote-free CSV text. */
module Text {

  /** The separators of CSV text: between fields, between records, and the
      carriage return of a "\r\n" line ending. */
  const Comma: char := ','
  const Newline: char := '\n'
  const CarriageReturn: char := '\r'

  /** `parts` with `sep` written between consecutive parts. */
  function Join(parts: seq<string>, sep: char): string
  {
    if |parts| == 0 then ""
    else if |parts| == 1 then parts[0]
    else parts[0] + [sep] + Join(parts[1..], sep)
  }

  /** The pieces of `s` between occurrences of `sep`, in order. There is always
      at least one piece; joining them back gives `s`. */
  function Split(s: string, sep: char): (parts: seq<string>)
    ensures |parts| >= 1
    ensures forall i :: 0 <= i < |parts| ==> sep !in parts[i]
    ensures Join(parts, sep) == s
    decreases |s|
  {
    if |s| == 0 then [""]
    else
      var rest := Split(s[1..], sep);
      if s[0] == sep then
        assert ([""] + rest)[1..] == rest;
        [""] + rest
      else
        var first := [s[0]] + rest[0];
        assert ([first] + rest[1..])[1..] == rest[1..];
        assert s == [s[0]] + s[1..];
        [first] + rest[1..]
  }

  /** A character absent from `s` is absent from every piece of it. */
  lemma {:induction false} SplitKeepsOut(s: string, sep: char, x: char)
    requires x !in s
    ensures forall i :: 0 <= i < |Split(s, sep)| ==> x !in Split(s, sep)[i]
    decreases |s|
  {
    if |s| > 0 {
      assert x !in s[1..];
      SplitKeepsOut(s[1..], sep, x);
    }
  }

  /** A character other than the separator that no part holds is absent from
      the join. */
  lemma {:induction false} JoinKeepsOut(parts: seq<string>, sep: char, x: char)
    requires x != sep
    requires forall i :: 0 <= i < |parts| ==> x !in parts[i]
    ensures x !in Join(parts, sep)
    decreases |parts|
  {
    if |parts| > 1 {
      JoinKeepsOut(parts[1..], sep, x);
    }
  }

  /** A join whose first part is non-empty starts with that part's first
      character. */
  lemma JoinStart(parts: seq<string>, sep: char)
    requires |parts| >= 1 && parts[0] != ""
    ensures |Join(parts, sep)| >= 1 && Join(parts, sep)[0] == parts[0][0]
  {
  }

  /** A string without the separator is a single piece. */
  lemma {:induction false} SplitNoSeparator(s: string, sep: char)
    requires sep !in s
    ensures Split(s, sep) == [s]
    decreases |s|
  {
    if |s| > 0 {
      assert sep !in s[1..];
      SplitNoSeparator(s[1..], sep);
      assert s == [s[0]] + s[1..];
    }
  }

  /** Splitting stops at the first separator. */
  lemma {:induction false} SplitAtFirst(a: string, b: string, sep: char)
    requires sep !in a
    ensures Split(a + [sep] + b, sep) == [a] + Split(b, sep)
    decreases |a|
  {
    var s := a + [sep] + b;
    if |a| == 0 {
      assert s[1..] == b;
    } else {
      assert s[1..] == a[1..] + [sep] + b;
      assert sep !in a[1..];
      SplitAtFirst(a[1..], b, sep);
      assert a == [a[0]] + a[1..];
    }
  }

  /** Splitting a join gives the parts back when no part holds the separator. */
  lemma {:induction false} SplitJoin(parts: seq<string>, sep: char)
    requires |parts| >= 1
    requires forall i :: 0 <= i < |parts| ==> sep !in parts[i]
    ensures Split(Join(parts, sep), sep) == parts
    decreases |parts|
  {
    if |parts| == 1 {
      SplitNoSeparator(parts[0], sep);
    } else {
      SplitJoin(parts[1..], sep);
      SplitAtFirst(parts[0], Join(parts[1..], sep), sep);
      assert parts == [parts[0]] + parts[1..];
    }
  }
}

=== FILE: transaction.dfy ===
/** The database half of `HandlePost`: one transaction inserting the parsed
    batch, then the catalog-wide aggregate query that fills the response. */
module Transaction {
  import opened Wrappers
  import opened CsvReader
  import opened Catalog
  import opened Dates

  /** The first storage step that fails, if any. The store's failures are
      not decided by the handler, so they are an input here. */
  datatype Outage =
    | Healthy
    | AtBegin
    | AtPrepare
    | AtExec(row: nat)             // the insert of batch element `row`
    | AtCategoryCount(row: nat)    // the per-row `COUNT(*)` query after that insert
    | AtCommit
    | AtAggregate

  datatype IngestError =
    | BeginFailed
    | PrepareFailed
    | ExecFailed(row: nat)
    | CategoryCountFailed(row: nat)
    | CommitFailed
    | AggregateFailed
    | NullPriceSum                 // `SUM` over an empty table scanned into a float

  /** The JSON body: `total_items`, `total_categories`, `total_price`. */
  datatype Response = Response(totalItems: int, totalCategories: int, totalPrice: real)

  /** The open transaction: rows it has inserted on top of the committed
      catalog, the next id, and the handler's `totalItems` counter. */
  datatype Tx = Tx(pending: seq<Entry>, nextId: int, items: nat)

  datatype IngestOutcome = IngestOutcome(store: Store, reply: Result<Response, IngestError>)

  /** The outage hits one of the `n` loop iterations. */
  predicate HitsLoop(n: nat, outage: Outage)
  {
    (outage.AtExec? && outage.row < n) || (outage.AtCategoryCount? && outage.row < n)
  }

  /** The transaction over a batch of `n` rows reaches a successful commit. */
  predicate Commits(n: nat, outage: Outage)
  {
    !outage.AtBegin? && !outage.AtPrepare? && !outage.AtCommit? && !HitsLoop(n, outage)
  }

  /** The insert loop from batch element `k` on: each element is inserted
      with the next id, counted, then the category query runs; the first
      failure ends the loop and the handler returns. */
  function ExecBatch(tx: Tx, batch: seq<PriceData>, k: nat, outage: Outage): (r: Result<Tx, IngestError>)
    requires k <= |batch|
    ensures r.Success? <==>
      !(outage.AtExec? && k <= outage.row < |batch|) && !(outage.AtCategoryCount? && k <= outage.row < |batch|)
    ensures r.Success? ==> r.value.pending == tx.pending + AsEntries(batch[k..], tx.nextId)
    ensures r.Success? ==> r.value.nextId == tx.nextId + (|batch| - k) && r.value.items == tx.items + (|batch| - k)
    ensures r.Failure? ==> r.error == if outage.AtExec? then ExecFailed(outage.row) else CategoryCountFailed(outage.row)
    decreases |batch| - k
  {
    if k == |batch| then
      assert batch[k..] == [];
      Success(tx)
    else if outage == AtExec(k) then Failure(ExecFailed(k))
    else
      var d := batch[k];
      var row := Entry(tx.nextId, d.name, d.category, d.price, d.createDate);
      var next := Tx(tx.pending + [row], tx.nextId + 1, tx.items + 1);
      if outage == AtCategoryCount(k) then Failure(CategoryCountFailed(k))
      else
        assert batch[k..][1..] == batch[k + 1..];
        assert AsEntries(batch[k..], tx.nextId) == [row] + AsEntries(batch[k + 1..], tx.nextId + 1);
        ExecBatch(next, batch, k + 1, outage)
  }

  /** `HandlePost` from `db.Begin()` to the response. The catalog changes only
      through a successful commit, and then by exactly the batch, appended in
      order. `total_items` counts the batch; `total_categories` and
      `total_price` are read back from the whole committed catalog. An empty
      catalog after commit has a NULL price sum, so the request fails although
      the commit stands. */
  function Ingest(store: Store, batch: seq<PriceData>, outage: Outage): (out: IngestOutcome)
    ensures Commits(|batch|, outage) ==>
      out.store == Store(store.entries + AsEntries(batch, store.nextId), store.nextId + |batch|)
    ensures !Commits(|batch|, outage) ==> out.store == store && out.reply.Failure?
    ensures out.reply.Success? <==> Commits(|batch|, outage) && !outage.AtAggregate? && |store.entries| + |batch| > 0
    ensures out.reply.Success? ==>
      out.reply.value == Response(|batch|, |Categories(out.store.entries)|, Sum(out.store.entries))
    ensures Commits(|batch|, outage) && !outage.AtAggregate? && |store.entries| + |batch| == 0 ==>
      out.reply == Failure(NullPriceSum)
  {
    if outage.AtBegin? then IngestOutcome(store, Failure(BeginFailed))
    else if outage.AtPrepare? then IngestOutcome(store, Failure(PrepareFailed))
    else
      match ExecBatch(Tx(store.entries, store.nextId, 0), batch, 0, outage)
      case Failure(e) => IngestOutcome(store, Failure(e))
      case Success(tx) =>
        assert batch[0..] == batch;
        if outage.AtCommit? then IngestOutcome(store, Failure(CommitFailed))
        else
          var committed := Store(tx.pending, tx.nextId);
          if outage.AtAggregate? then IngestOutcome(committed, Failure(AggregateFailed))
          else
            var agg := Aggregate(committed.entries);
            match agg.priceSum
            case None => IngestOutcome(committed, Failure(NullPriceSum))
            case Some(total) => IngestOutcome(committed, Success(Response(tx.items, agg.distinctCategories, total)))
  }

  /** The reported totals in terms of the catalog before the request and the
      batch: the price total is the old total plus the batch total, and the
      category count covers both, so it is at least either one alone. */
  lemma IngestTotals(store: Store, batch: seq<PriceData>, outage: Outage)
    requires Ingest(store, batch, outage).reply.Success?
    ensures Ingest(store, batch, outage).reply.value.totalItems == |batch|
    ensures Ingest(store, batch, outage).reply.value.totalPrice == Sum(store.entries) + BatchSum(batch)
    ensures Ingest(store, batch, outage).reply.value.totalCategories
            == |Categories(store.entries) + BatchCategories(batch)|
    ensures Ingest(store, batch, outage).reply.value.totalCategories >= |Categories(store.entries)|
    ensures Ingest(store, batch, outage).reply.value.totalCategories >= |BatchCategories(batch)|
  {
    var added := AsEntries(batch, store.nextId);
    SumAppend(store.entries, added);
    CategoriesAppend(store.entries, added);
    AsEntriesTotals(batch, store.nextId);
    SubsetCard(Categories(store.entries), Categories(store.entries) + BatchCategories(batch));
    SubsetCard(BatchCategories(batch), Categories(store.entries) + BatchCategories(batch));
  }

  /** A failed request leaves the catalog as it was, wherever in the batch the
      failure struck. */
  lemma FailureLeavesCatalog(store: Store, batch: seq<PriceData>, k: nat)
    requires k < |batch|
    ensures Ingest(store, batch, AtExec(k)).store == store
    ensures Ingest(store, batch, AtCategoryCount(k)).store == store
    ensures Ingest(store, batch, AtCommit).store == store
  {
  }

  /** The reported price total is the batch-local running sum only when the
      catalog held nothing of value before: with a non-zero prior total the
      response differs from the loop's own counter. */
  lemma BatchLocalTotalUnreported(store: Store, batch: seq<PriceData>, outage: Outage)
    requires Ingest(store, batch, outage).reply.Success?
    ensures Ingest(store, batch, outage).reply.value.totalPrice == BatchSum(batch) <==> Sum(store.entries) == 0.0
  {
    IngestTotals(store, batch, outage);
  }

  /** Two successful ingests in a row: the second response reports the totals
      over the original catalog and both batches, not over the second batch. */
  lemma Cumulative(store: Store, a: seq<PriceData>, b: seq<PriceData>)
    requires Ingest(store, a, Healthy).reply.Success?
    ensures Ingest(Ingest(store, a, Healthy).store, b, Healthy).reply.Success?
    ensures Ingest(Ingest(store, a, Healthy).store, b, Healthy).reply.value.totalPrice
            == Sum(store.entries) + BatchSum(a) + BatchSum(b)
    ensures Ingest(Ingest(store, a, Healthy).store, b, Healthy).reply.value.totalCategories
            == |Categories(store.entries) + BatchCategories(a) + BatchCategories(b)|
  {
    var mid := Ingest(store, a, Healthy).store;
    IngestTotals(store, a, Healthy);
    IngestTotals(mid, b, Healthy);
    var added := AsEntries(a, store.nextId);
    SumAppend(store.entries, added);
    CategoriesAppend(store.entries, added);
    AsEntriesTotals(a, store.nextId);
  }

  /** Appending entries numbered consecutively from `next` to entries whose
      ids increase and stay below `next` keeps ids increasing. */
  lemma ConsecutiveAppend(prior: seq<Entry>, added: seq<Entry>, next: int)
    requires IdsIncrease(prior) && IdsBelow(prior, next)
    requires forall m :: 0 <= m < |added| ==> added[m].id == next + m
    ensures IdsIncrease(prior + added) && IdsBelow(prior + added, next + |added|)
  {
    var es := prior + added;
    forall i, j | 0 <= i < j < |es|
      ensures es[i].id < es[j].id
    {
      if j >= |prior| {
        assert es[j] == added[j - |prior|];
        if i >= |prior| {
          assert es[i] == added[i - |prior|];
        }
      }
    }
    forall m | 0 <= m < |es|
      ensures es[m].id < next + |added|
    {
      if m >= |prior| {
        assert es[m] == added[m - |prior|];
      }
    }
  }

  /** Appending a batch with ids from the next id keeps ids increasing
      and below the advanced next id. */
  lemma AppendKeepsIdsOrdered(store: Store, batch: seq<PriceData>)
    requires IdsOrdered(store)
    ensures IdsOrdered(Store(store.entries + AsEntries(batch, store.nextId), store.nextId + |batch|))
  {
    ConsecutiveAppend(store.entries, AsEntries(batch, store.nextId), store.nextId);
  }

  /** Ingest keeps ids increasing along the catalog and below the next id. */
  lemma IngestKeepsIdsOrdered(store: Store, batch: seq<PriceData>, outage: Outage)
    requires IdsOrdered(store)
    ensures IdsOrdered(Ingest(store, batch, outage).store)
  {
    AppendKeepsIdsOrdered(store, batch);
  }

  /** The two example rows as inserted from id 1. */
  lemma TwoToolsRows(batch: seq<PriceData>)
    requires batch == [PriceData("Widget", "Tools", 9.99, Date(2024, 1, 15)),
                       PriceData("Gadget", "Tools", 19.50, Date(2024, 2, 1))]
    ensures Categories(AsEntries(batch, 1)) == {"Tools"}
    ensures Sum(AsEntries(batch, 1)) == 29.49
  {
    var es := AsEntries(batch, 1);
    assert |es| == 2 && es[0].category == "Tools" && es[1].category == "Tools";
    forall c | c in Categories(es)
      ensures c == "Tools"
    {
      var e :| e in es && e.category == c;
    }
    assert es[0] in es;
    assert Sum(es) == 9.99 + Sum(es[1..]);
    assert Sum(es[1..]) == 19.50 + Sum(es[2..]);
  }

  /** Two records of one category into an empty catalog: two items, one
      category, total 29.49. */
  lemma TwoToolsExample()
    ensures Ingest(Store([], 1), [PriceData("Widget", "Tools", 9.99, Date(2024, 1, 15)),
                                  PriceData("Gadget", "Tools", 19.50, Date(2024, 2, 1))], Healthy).reply
            == Success(Response(2, 1, 29.49))
  {
    var batch := [PriceData("Widget", "Tools", 9.99, Date(2024, 1, 15)),
                  PriceData("Gadget", "Tools", 19.50, Date(2024, 2, 1))];
    TwoToolsRows(batch);
    var es := AsEntries(batch, 1);
    assert Commits(|batch|, Healthy);
    assert [] + es == es;
  }
}

=== FILE: wrappers.dfy ===
/** Optional values and success-or-error results, the shapes the Go code returns
    as `(value, error)` pairs. */
module Wrappers {

  datatype Option<+T> = None | Some(value: T)

  datatype Result<+T, +E> = Success(value: T) | Failure(error: E)
}
